=== FILE: README.md ===
# LongerBuff — a Dafny model of the buff-duration policy core

LongerBuff is a game mod that rewrites the duration of a status effect ("buff")
when the game applies it. A registry of known buffs decides whether a buff may
be extended. The registry is seeded from a hard-coded table and reconciled
once with the game's live catalog. The user's settings supply a multiplier, a
stacking switch and a whitelist of extra ids.

This project models four pieces of the mod as pure Dafny functions and
methods over explicit state:

- **The registry** (`BuffData`, `KnownBuffDatabase`, `HardcodedBuffs`):
  - `BuffInfo` and its conditional `UpdateRuntimeValues`;
  - the insert-if-absent `Add`, `RegisterExternal` and `RegisterNewBuff`;
  - the one-shot `SyncWithGame`, and `GetAllowedExtensionBuffIds`;
  - the 73-row seed table. Its ids are proved distinct region by region,
    following the source's `#region`s.
- **The configuration** (`LongerBuffConfig`, with `Numerals` for
  `int.TryParse`):
  - the multiplier and stacking setters;
  - `Load`;
  - the whitelist tokenizer and parser, and its lazily filled cache with
    `ClearCache`.
- **The duration patch** (`BuffDurationPatch`):
  - the prefix, which snapshots the previous time;
  - `CheckAndRegisterBuff`, a three-tier allow/deny decision that registers
    unknown buffs;
  - the postfix arithmetic with its clamp to `MaxBuffDuration`.
- **The CSV export text** (`BuffExporter`):
  - `EscapeCsv` and the field formatting;
  - the header and data lines;
  - a quote-aware line reader used to state what a line reads back as.

### How the model represents the source

- Static state becomes values:
  - `Database(buffs, hasSyncedWithGame)` for the registry;
  - `Config(...)` for the settings and the cache;
  - `PatchInputs(enableInfiniteDuration, blacklistIds)` for the two settings
    the patch reads that are defined outside the configuration class.
- Each operation returns the new state.
- A C# `string` that may be null is `Option<string>`.
- An enum tag is its `ToString()` name.
- `float` is `real`.
- The game's catalog scan is an input sequence of `CatalogEntry` records.
- Unity's `Mathf.Approximately` is written with its documented formula over
  reals: the difference is below a millionth of the larger magnitude, or below
  eight times the smallest float. The proofs use only its reflexivity and
  symmetry, and the one concrete pair of values in `SeededBleedingResynced`.

### Behaviours of the code worth knowing

- The sync latch is set unconditionally, even when the catalog is empty
  (Data/BuffDatabase.cs:144). A failed catalog scan therefore disables every
  later sync.
- Dynamic registration stores the raw enum name as the tag, so an unrelated
  buff gets the tag "NotExclusive" (Patches/BuffDurationPatch.cs:130). Sync
  stores null in the same case (Data/BuffDatabase.cs:116-117).
- The default of `allowExtension` depends on the entry point:
  - `true` for the constructor and `RegisterNewBuff`;
  - `false` for the seed `Add`.
- A catalog id that occurs more than once is reconciled once per occurrence
  (Data/BuffDatabase.cs:113-122). The last entry is applied last, on top of
  what the earlier entries left. `UpdateRuntimeValues` keeps the old tag when
  the new one is null or empty, and keeps the old duration when the two are
  approximately equal, so an earlier entry's tag can survive.

## Model

| member | source | states |
|---|---|---|
| BuffData.UpdateRuntimeValues | Data/BuffDatabase.cs:49-62 | If the duration is approximately equal and the stack limit is the same, nothing changes, the tag included. Otherwise both numbers take the new values. The tag is replaced only by a non-empty one. Id, names and both policy flags never change. |
| BuffData.UpdateRuntimeValuesIdempotent | Data/BuffDatabase.cs:49-62 | Applying the same live values a second time changes nothing. |
| BuffData.UpdateRuntimeValuesAgrees | Data/BuffDatabase.cs:52-56 | After an update, the stack limit equals the live one and the duration is approximately the live one. |
| BuffData.ApproximatelyReflexive | Data/BuffDatabase.cs:52 | `Mathf.Approximately(a, a)` holds. |
| BuffData.ApproximatelySymmetric | Data/BuffDatabase.cs:52 | `Mathf.Approximately` does not depend on argument order. |
| KnownBuffDatabase.Add | Data/BuffDatabase.cs:186-192 | Inserts the definition only when the id is absent. Every existing entry stays as it was. A present id leaves the registry identical. |
| KnownBuffDatabase.AddIdempotent | Data/BuffDatabase.cs:186-192 | Adding the same row twice inserts once, and the size grows by at most one. |
| KnownBuffDatabase.TryGetBuff | Data/BuffDatabase.cs:148-151 | Finds a definition exactly when the id is registered, and it is the stored one. |
| KnownBuffDatabase.RegisterExternal | Data/BuffDatabase.cs:153-158 | Returns true exactly when the id was free. If it returns false, the registry is unchanged. Otherwise that one entry is added, the size grows by one, the latch is kept and no other entry changes. |
| KnownBuffDatabase.RegisterNewBuff | Data/BuffDatabase.cs:72-75 | Registers a definition built from the arguments, with extension allowed by default. It succeeds exactly when the id was free. Every other entry and the latch are unchanged. |
| KnownBuffDatabase.SyncEntriesFrame | Data/BuffDatabase.cs:113-142 | The sync loop keeps every known id and adds the catalog ids. It never touches the identity or policy of a known entry. Ids outside the catalog are untouched. A discovered entry has both flags false. |
| KnownBuffDatabase.SyncEntriesNewCount | Data/BuffDatabase.cs:125-140 | The count of new entries is the number of distinct catalog ids the registry did not know. |
| KnownBuffDatabase.SyncEntriesValues | Data/BuffDatabase.cs:113-138 | For a catalog id that occurs once, a known entry ends up reconciled with its live values. An unknown one ends up as the discovered definition. |
| KnownBuffDatabase.SyncEntriesLastWins | Data/BuffDatabase.cs:113-138 | For any catalog, repeated ids included, an id ends up as its last entry makes it from the state the earlier entries left. Later entries with other ids do not touch it. |
| KnownBuffDatabase.SyncWithGame | Data/BuffDatabase.cs:104-146 | A no-op once latched, and the latch is always set afterwards. Updated plus new equals the catalog length. The keys become the old keys plus the catalog ids. Entries whose id is not in the catalog are unchanged. No known entry changes identity or policy. Discovered entries allow no extension and are not beneficial. |
| KnownBuffDatabase.SyncWithGameOnce | Data/BuffDatabase.cs:104-106 | A second sync, whatever the catalog, leaves the registry exactly as the first left it. |
| KnownBuffDatabase.SyncWithGameValues | Data/BuffDatabase.cs:113-138 | For a catalog id that occurs once: a discovered entry's duration is the lifetime, or -1 when unlimited; a "NotExclusive" tag becomes null; the names and stack limit come from the catalog; a known entry is updated through `UpdateRuntimeValues`. For any id, repeated or not, its last catalog entry is applied last. |
| KnownBuffDatabase.GetAllowedExtensionBuffIds | Data/BuffDatabase.cs:164-183 | The list holds exactly the ids of entries that allow extension. In a well-keyed registry it has no duplicates. |
| HardcodedBuffs.SeedAllRows | Data/BuffDatabase.cs:186-192 | Folding `Add` over rows with distinct ids leaves every row present as written, and the earlier entries untouched. |
| HardcodedBuffs.SeedIdsDistinct | Data/BuffDatabase.cs:194-335 | No id appears twice in the seed table. |
| HardcodedBuffs.InitializeHardcodedBuffs | Data/BuffDatabase.cs:194-335 | The seeded registry holds exactly the 73 table ids, each row as written, and the latch is not set. |
| HardcodedBuffs.SeededBleedingResynced | Data/BuffDatabase.cs:200 | Bleeding is seeded at 25 s. After a sync that reports 30 s, it holds 30 s, keeps extension disallowed and keeps its tag. |
| Numerals.ParseInt32 | Settings/LongerBuffConfig.cs:99 | `int.TryParse` in its default style. Only values in the 32-bit range are accepted. |
| Numerals.ParseInt32Exactly | Settings/LongerBuffConfig.cs:99 | Parsing succeeds exactly when the text, trimmed of number white space, is an optional sign and one or more digits whose value fits in 32 bits. The result is then that value. |
| Numerals.StrayCharNoParse | Settings/LongerBuffConfig.cs:99 | Any non-digit inside the trimmed text, other than a leading sign, makes the parse fail. |
| Numerals.SignAloneNoParse | Settings/LongerBuffConfig.cs:99 | "+" and "-" alone do not parse. |
| Numerals.MixedTextsNoParse | Settings/LongerBuffConfig.cs:99 | "12a", "1.5", "1e3" and "1-2" do not parse. |
| Numerals.IntToStringRoundTrip | Settings/LongerBuffConfig.cs:99 | Parsing the decimal text of any 32-bit integer returns it. |
| Numerals.NoDigitNoParse | Settings/LongerBuffConfig.cs:99 | Text with no digit or sign never parses. |
| LongerBuffConfig.SetBuffDurationMultiplier | Settings/LongerBuffConfig.cs:36-47 | The value is taken, and the change is reported, exactly when it differs from the current one by more than 0.001. Either way the stored value ends within 0.001 of the requested one. |
| LongerBuffConfig.SetBuffDurationMultiplierIdempotent | Settings/LongerBuffConfig.cs:41-45 | Setting the same multiplier again changes nothing and reports no change. |
| LongerBuffConfig.SetAllowBuffStack | Settings/LongerBuffConfig.cs:52-63 | The flag takes the value. A change is reported exactly when the value flipped. |
| LongerBuffConfig.SetAllowBuffStackIdempotent | Settings/LongerBuffConfig.cs:57-61 | Setting the same flag again reports no change. |
| LongerBuffConfig.Load | Settings/LongerBuffConfig.cs:65-82 | A saved multiplier within [1, 20] is taken. A missing or out-of-range one leaves the current multiplier. A saved stack flag is taken. A saved id string replaces the current one and clears the cache. Absent keys change nothing. |
| LongerBuffConfig.LoadKeepsMultiplierRange | Settings/LongerBuffConfig.cs:67-70 | A multiplier inside [1, 20] stays inside it, whatever was saved. |
| LongerBuffConfig.LoadIdempotent | Settings/LongerBuffConfig.cs:65-82 | Loading the same saved settings twice equals loading them once. |
| LongerBuffConfig.SplitIds | Settings/LongerBuffConfig.cs:96 | Every token is non-empty and holds none of ',', ' ', '，', ';'. `SplitLayout` pins down which tokens. |
| LongerBuffConfig.SplitLayout | Settings/LongerBuffConfig.cs:96 | The tokens are exactly the maximal separator-free runs. Leading, trailing, repeated and mixed separators all vanish. |
| LongerBuffConfig.SplitFromKeepsText | Settings/LongerBuffConfig.cs:96 | The tokens, concatenated, are the input with exactly the separators removed. |
| LongerBuffConfig.SplitJoin | Settings/LongerBuffConfig.cs:96 | Splitting text joined with any one separator returns the original tokens. |
| LongerBuffConfig.ParseIds | Settings/LongerBuffConfig.cs:91-104 | A null or blank string gives the empty set. Every id in the set is a 32-bit integer. |
| LongerBuffConfig.ParseIdsText | Settings/LongerBuffConfig.cs:96-103 | For any 32-bit ids typed with any separator runs between them and at either end, the whitelist is exactly that set of ids. |
| LongerBuffConfig.ParseIdsTypedList | Settings/LongerBuffConfig.cs:96-103 | " 1001, 1002;" gives the whitelist {1001, 1002}. |
| LongerBuffConfig.ParseIdsIsTokenIds | Settings/LongerBuffConfig.cs:93-103 | The blank-string shortcut gives the same set as tokenizing would. Unparsable tokens are dropped. |
| LongerBuffConfig.GetCustomWhiteListIds | Settings/LongerBuffConfig.cs:87-105 | A cached set is returned as is, with no state change. Otherwise the id string is parsed. Either way the returned set is what is cached afterwards. |
| LongerBuffConfig.GetCustomWhiteListIdsCoherent | Settings/LongerBuffConfig.cs:87-105 | On a coherent cache, the read returns the parse of the current string and keeps the cache coherent. |
| LongerBuffConfig.GetCustomWhiteListIdsStable | Settings/LongerBuffConfig.cs:89 | A second read returns the same set and changes nothing. |
| LongerBuffConfig.ClearCache | Settings/LongerBuffConfig.cs:107-110 | The cache is dropped, not recomputed, so the next read parses whatever string is current then. Nothing else changes. |
| LongerBuffConfig.SetCustomExtendedBuffIds | Settings/SettingsUI.cs:42-46 | Storing a new string through the settings field stores exactly that string and drops the cache. The next read returns the new string's ids. |
| LongerBuffConfig.OperationsKeepCacheCoherent | Settings/LongerBuffConfig.cs:36-105 | The setters, `Load` and the read all preserve cache coherence. |
| LongerBuffConfig.InitialConfigCoherent | Settings/LongerBuffConfig.cs:17-29 | The initial state is coherent, and its whitelist is empty. |
| LongerBuffConfig.RawAssignmentLeavesStaleCache | Settings/LongerBuffConfig.cs:27-29 | Assigning the public id string after a read, without `ClearCache`, keeps returning the stale set. |
| BuffDurationPatch.CheckAndRegisterBuff | Patches/BuffDurationPatch.cs:106-141 | A blacklisted id is denied with no change. A known id that allows extension is allowed with no change. Otherwise the answer is whitelist membership. An unknown id is registered with that answer as its flag and not beneficial, and the latch is kept. A well-keyed registry stays well keyed. |
| BuffDurationPatch.CheckAndRegisterBuffMatchesPolicy | Patches/BuffDurationPatch.cs:110-122 | On a coherent cache, the ordered checks allow exactly when the id is not blacklisted and either its registry flag or the whitelist allows it. |
| BuffDurationPatch.BlacklistDominates | Patches/BuffDurationPatch.cs:110-113 | A blacklisted id is denied and nothing changes, whatever its flag or the whitelist say. |
| BuffDurationPatch.KnownIdLeavesRegistry | Patches/BuffDurationPatch.cs:115-120 | Deciding on a known id never changes the registry. |
| BuffDurationPatch.UnknownIdRegisteredOnce | Patches/BuffDurationPatch.cs:122-140 | An unknown id that is not blacklisted gains exactly one entry. The entry's flag equals the decision, and it is not beneficial. Other entries are untouched. |
| BuffDurationPatch.CheckAndRegisterBuffStable | Patches/BuffDurationPatch.cs:106-141 | Deciding again on the same id gives the same answer and changes nothing more. |
| BuffDurationPatch.FinalTime | Patches/BuffDurationPatch.cs:73-96 | In infinite mode it is `MaxBuffDuration`. Otherwise the requested time is the multiplied base time, plus the previous time when stacking. The result is the requested time when that is at most the ceiling, and the ceiling when it is above. |
| BuffDurationPatch.InfiniteIgnoresEverything | Patches/BuffDurationPatch.cs:75-80 | Infinite mode gives 86400 whatever the multiplier, the stacking switch, the base time or the previous time. |
| BuffDurationPatch.ReplaceIgnoresPrevious | Patches/BuffDurationPatch.cs:90-93 | Without stacking, the previous time has no effect. |
| BuffDurationPatch.StackingAtLeastReplacing | Patches/BuffDurationPatch.cs:84-93 | With a non-negative previous time, stacking never gives less than replacing. |
| BuffDurationPatch.StackingMonotone | Patches/BuffDurationPatch.cs:86-89 | With stacking, more time left before the call never gives less after it. |
| BuffDurationPatch.FinalTimeExamples | Patches/BuffDurationPatch.cs:84-96 | A 10 s buff at ×2 on 5 s remaining gives 25 s when stacking and 20 s when replacing. |
| BuffDurationPatch.FirstMatchTimeIsFirstMatch | Patches/BuffDurationPatch.cs:32-39 | The recursive first-match time is 0 with no match. Otherwise it is the time of the first buff with the id. |
| BuffDurationPatch.CapturePreviousTime | Patches/BuffDurationPatch.cs:25-41 | The result is 0 for a null prefab, a null list or no match. Otherwise it is the remaining time of the first buff with the prefab's id. |
| BuffDurationPatch.FindLastMatch | Patches/BuffDurationPatch.cs:55-63 | Finds nothing exactly when no buff has the id. Otherwise it finds the last buff with the id. |
| BuffDurationPatch.ApplyDuration | Patches/BuffDurationPatch.cs:48-101 | The postfix changes nothing for a null prefab, a null or empty list, no match, or an unlimited buff. Registration still happens for a denied buff. Otherwise the last matching buff gets `FinalTime`. Only that buff changes, keeping its id, and never above the ceiling. |
| BuffDurationPatch.AddBuffEvent | Patches/BuffDurationPatch.cs:25-101 | Over a whole event, the rewritten buff's time is `FinalTime` of the previous time the prefix captured. Every rewritten time is at most 86400, and exactly 86400 in infinite mode. |
| BuffExporter.EscapeCsv | Utilities/BuffExporter.cs:55-63 | Null or empty gives "". A value with a comma is wrapped in double quotes. Anything else is unchanged. |
| BuffExporter.FormatF1Accurate | Utilities/BuffExporter.cs:35 | The one-decimal text of a non-negative duration is within 0.05 of it. |
| BuffExporter.DurationField | Utilities/BuffExporter.cs:34-35 | The duration column is "Infinite" exactly when the duration is negative. |
| BuffExporter.TagField | Utilities/BuffExporter.cs:32 | The tag column is "None" for a null or empty tag, and the raw tag otherwise. |
| BuffExporter.BuffRowLayout | Utilities/BuffExporter.cs:37 | A data line is id, display name, internal name, duration, stack limit, tag and the two flags, separated by commas. |
| BuffExporter.ParseJoinedValues | Utilities/BuffExporter.cs:55-62 | A line of escaped values with no double quote reads back as those values. |
| BuffExporter.BuffRowReadsBack | Utilities/BuffExporter.cs:27-37 | A data line of an entry whose names and tag hold no quote, and whose tag holds no comma, reads back as its column values. |
| BuffExporter.BuffRowRoundTrip | Utilities/BuffExporter.cs:27-37 | Reading a data line back recovers the id and stack limit as numbers, and both names. It also recovers whether the duration was infinite, the tag and both flags. A finite duration reads back as a one-decimal number within 0.05 of it. |
| BuffExporter.ExportDatabase | Utilities/BuffExporter.cs:14-38 | The header first, then exactly one line per registry entry, each entry once. |
| BuffExporter.ExportRoundTrip | Utilities/BuffExporter.cs:24-38 | In a well-keyed registry, every exportable entry has a line, and that line reads back to the entry. |

## Left out

- Harmony interception, reflective field access and the `ref` write of
  `totalLifeTime` (Patches/BuffDurationPatch.cs:10-16, 70). The prefix and
  postfix are functions of the buff list, and the postfix returns the
  rewritten list.
- `GetCustomBlacklistIds()` and `EnableInfiniteDuration` are defined outside
  Settings/LongerBuffConfig.cs. Their code is not part of this model. They
  enter as the `PatchInputs` blacklist set and flag.
- ModBehaviour.cs (lifecycle, localisation, Harmony set-up). It calls `Load`
  and then `SyncWithGame`. Both are modelled, but not the start-up sequence
  as one operation.
- SettingsUI.cs widget registration. Only the id field's callback, store then
  `ClearCache`, is modelled, as `SetCustomExtendedBuffIds`.
- BuffHelper.cs resource scanning, its sorting and its exception handling.
  The catalog is any input sequence, repeated ids included. A scan failure
  yields an empty or partial catalog (Utilities/BuffHelper.cs:23-49), and the
  latch is still set.
- Logging, the `StringBuilder` diagnostics and the `OnConfigChanged` event. A
  setter reports the event as its `changed` flag.
- `KnownBuffDatabase.AllBuffs` and `ModBuffRegistry.Register`. The first is
  the registry's values, read directly by `ExportDatabase`. The second is
  `RegisterExternal` under another name.
- Dictionary enumeration order. `GetAllowedExtensionBuffIds` and
  `ExportDatabase` take keys in an unspecified order. Their contracts are
  stated without order, and the export reports the order it chose.
- The file write, the output path and the line terminators of the export
  (Utilities/BuffExporter.cs:40-46). The result is the sequence of lines.
- Single-precision floats. Durations, the multiplier and the 0.001 tolerance
  are exact reals, so float rounding of `base * multiplier` and of the
  additions is not modelled.
- BuffExporter.FormatF1: rounds the exact real half away from zero. It does
  not model how .NET rounds the binary value of a float. Its contract states
  the text's shape and a 0.05 accuracy, not a particular digit string. It
  always writes '.' as the decimal separator. `ToString("F1")` uses the
  current culture's separator, so under a culture with a decimal comma the
  unescaped duration splits into two columns. `DurationHasNoComma`,
  `BuffRowReadsBack`, `BuffRowRoundTrip` and `ExportRoundTrip` hold only
  under a culture with a '.' separator.
- BuffExporter.BuffRowRoundTrip: holds only for names and tags without a
  double quote, and tags without a comma. `EscapeCsv` does not double
  embedded quotes, and the tag is written unescaped. Line breaks inside names
  are not modelled, because the export is a sequence of lines.
- Numerals.ParseInt32: covers `int.TryParse` with the invariant culture's
  signs and the default `Integer` style: surrounding white space, an optional
  sign and decimal digits. It does not cover the trailing NUL characters .NET
  also accepts, or other cultures' sign symbols.
- LongerBuffConfig.IsWhiteSpace: the fixed list of Unicode `White_Space`
  characters that `char.IsWhiteSpace` uses; other Unicode details are left out.
- `BuffInfo.IsInfinite` is defined as `duration < 0`. `BuffRowRoundTrip`
  states through it that the duration column reads "Infinite" exactly for
  such buffs. It has no row of its own.

=== FILE: buff_data.dfy ===
/**
 * One buff definition as the registry stores it, and the in-place
 * correction applied when live game data disagrees with it.
 * (Data/BuffDatabase.cs, class `BuffInfo`.)
 */
module BuffData {
  import opened Wrappers

  /** A C# `string` reference: None is null. */
  type NullableString = Option<string>

  /** `string.IsNullOrEmpty`. */
  predicate IsNullOrEmpty(s: NullableString) {
    s.None? || s.value == ""
  }

  /**
   * A buff definition. The constructor's defaults are those of the C#
   * constructor: no exclusion tag, extension allowed, not beneficial.
   * A negative duration means the buff never expires on its own.
   */
  datatype BuffInfo = BuffInfo(
    id: int,
    internalName: NullableString,
    displayName: NullableString,
    duration: real,
    maxStack: int,
    exclusionTag: NullableString := None,
    allowExtension: bool := true,
    isBeneficial: bool := false)
  {
    /** `IsInfinite`: the buff has no natural expiry. */
    predicate IsInfinite() {
      duration < 0.0
    }
  }

  /** The fields a runtime update may never touch: identity and policy flags. */
  predicate SameIdentityAndPolicy(a: BuffInfo, b: BuffInfo) {
    && a.id == b.id
    && a.internalName == b.internalName
    && a.displayName == b.displayName
    && a.allowExtension == b.allowExtension
    && a.isBeneficial == b.isBeneficial
  }

  function Abs(x: real): real {
    if x < 0.0 then -x else x
  }

  function Max(x: real, y: real): real {
    if x < y then y else x
  }

  /** The smallest positive single-precision value, `Mathf.Epsilon`. */
  const FloatEpsilon: real := 1.401298e-45

  /**
   * Unity's `Mathf.Approximately`, over exact reals: the difference is below
   * a millionth of the larger magnitude, or below eight times the smallest
   * positive float. Only its reflexivity and symmetry matter to the model.
   */
  predicate Approximately(a: real, b: real) {
    Abs(b - a) < Max(0.000001 * Max(Abs(a), Abs(b)), FloatEpsilon * 8.0)
  }

  lemma ApproximatelyReflexive(a: real)
    ensures Approximately(a, a)
  {
  }

  lemma ApproximatelySymmetric(a: real, b: real)
    ensures Approximately(a, b) == Approximately(b, a)
  {
  }

  /**
   * `UpdateRuntimeValues`: when the duration is not approximately the stored
   * one or the stack limit differs, both numbers take the new values and a
   * non-empty tag replaces the old one; otherwise nothing changes, the tag
   * included. Identity and policy never change.
   */
  function UpdateRuntimeValues(info: BuffInfo, newDuration: real, newMaxStack: int, newExclusionTag: NullableString): (r: BuffInfo)
    ensures SameIdentityAndPolicy(info, r)
    ensures Approximately(info.duration, newDuration) && info.maxStack == newMaxStack ==> r == info
    ensures !(Approximately(info.duration, newDuration) && info.maxStack == newMaxStack) ==>
      && r.duration == newDuration
      && r.maxStack == newMaxStack
      && r.exclusionTag == (if IsNullOrEmpty(newExclusionTag) then info.exclusionTag else newExclusionTag)
  {
    if !Approximately(info.duration, newDuration) || info.maxStack != newMaxStack then
      info.(duration := newDuration,
            maxStack := newMaxStack,
            exclusionTag := if IsNullOrEmpty(newExclusionTag) then info.exclusionTag else newExclusionTag)
    else
      info
  }

  /** Applying the same runtime values a second time changes nothing. */
  lemma UpdateRuntimeValuesIdempotent(info: BuffInfo, newDuration: real, newMaxStack: int, newExclusionTag: NullableString)
    ensures var once := UpdateRuntimeValues(info, newDuration, newMaxStack, newExclusionTag);
            UpdateRuntimeValues(once, newDuration, newMaxStack, newExclusionTag) == once
  {
    ApproximatelyReflexive(newDuration);
  }

  /**
   * After an update the stored numbers agree with the live ones: the stack
   * limit exactly, the duration up to `Approximately`.
   */
  lemma UpdateRuntimeValuesAgrees(info: BuffInfo, newDuration: real, newMaxStack: int, newExclusionTag: NullableString)
    ensures var r := UpdateRuntimeValues(info, newDuration, newMaxStack, newExclusionTag);
            r.maxStack == newMaxStack && Approximately(r.duration, newDuration)
  {
    ApproximatelyReflexive(newDuration);
  }
}

=== FILE: buff_duration_patch.dfy ===
/**
 * The interception of `CharacterBuffManager.AddBuff`
 * (Patches/BuffDurationPatch.cs): the prefix snapshots the remaining time of
 * a buff with the same id, the postfix decides whether the buff may be
 * extended and, if so, rewrites the duration of the buff just added.
 *
 * The registry and the settings are passed in and returned explicitly. The
 * blacklist and the infinite-duration switch are read from configuration
 * code that is not part of this model, so they arrive as `PatchInputs`.
 */
module BuffDurationPatch {
  import opened Wrappers
  import opened BuffData
  import opened KnownBuffDatabase
  import opened LongerBuffConfig

  /** A buff instance on a character: its id and its field `totalLifeTime`. */
  datatype RuntimeBuff = RuntimeBuff(id: int, totalLifeTime: real, limitedLifeTime: bool)

  /** The prefab passed to `AddBuff`: the metadata dynamic registration copies. */
  datatype Prefab = Prefab(
    id: int,
    name: NullableString,
    displayName: NullableString,
    totalLifeTime: real,
    maxLayers: int,
    exclusiveTag: string)

  /** The two configuration values the patch reads besides `LongerBuffConfig`. */
  datatype PatchInputs = PatchInputs(enableInfiniteDuration: bool, blacklistIds: set<int>)

  /** Everything the patch reads and may change: the registry and the settings (for the cache). */
  datatype State = State(db: Database, config: Config)

  // ---------------------------------------------------------------------
  // Policy
  // ---------------------------------------------------------------------

  /** The policy as one rule: never a blacklisted id; otherwise the database flag or the user's whitelist. */
  predicate PolicyAllows(buffs: Registry, blacklist: set<int>, whitelist: set<int>, id: int) {
    id !in blacklist && ((id in buffs && buffs[id].allowExtension) || id in whitelist)
  }

  /** The decision and the state after it. */
  datatype Decision = Decision(state: State, allow: bool)

  /**
   * `CheckAndRegisterBuff`: the blacklist denies first; a known id is
   * allowed by its flag or else by the whitelist; an unknown id is registered
   * with the prefab's own metadata, its flag set to whitelist membership, and
   * that membership is the decision. The whitelist is read (and so cached)
   * only when the decision needs it.
   */
  function CheckAndRegisterBuff(st: State, inputs: PatchInputs, buffId: int, prefab: Prefab): (d: Decision)
    ensures buffId in inputs.blacklistIds ==> d == Decision(st, false)
    ensures buffId !in inputs.blacklistIds && buffId in st.db.buffs && st.db.buffs[buffId].allowExtension
            ==> d == Decision(st, true)
    ensures buffId !in inputs.blacklistIds && !(buffId in st.db.buffs && st.db.buffs[buffId].allowExtension) ==>
      var read := GetCustomWhiteListIds(st.config);
      && d.allow == (buffId in read.ids)
      && d.state.config == read.config
      && d.state.db.hasSyncedWithGame == st.db.hasSyncedWithGame
      && d.state.db.buffs == st.db.buffs[buffId := RegisteredBuff(st.db.buffs, buffId, prefab, d.allow)]
    ensures WellKeyed(st.db.buffs) ==> WellKeyed(d.state.db.buffs)
  {
    if buffId in inputs.blacklistIds then Decision(st, false)
    else match TryGetBuff(st.db, buffId)
      case Some(info) =>
        if info.allowExtension then Decision(st, true)
        else
          var read := GetCustomWhiteListIds(st.config);
          Decision(State(st.db, read.config), buffId in read.ids)
      case None =>
        var read := GetCustomWhiteListIds(st.config);
        var wants := buffId in read.ids;
        var reg := RegisterNewBuff(st.db, buffId, prefab.name, prefab.displayName, prefab.totalLifeTime,
                                   prefab.maxLayers, Some(prefab.exclusiveTag), allowExtension := wants, isBeneficial := false);
        Decision(State(reg.db, read.config), wants)
  }

  /**
   * The entry for `id` after the decision: the existing one, or the one
   * dynamic registration creates. Its tag is the enum name as is, so an
   * unrelated buff is recorded with the tag "NotExclusive" (sync would store null).
   */
  function RegisteredBuff(buffs: Registry, id: int, prefab: Prefab, allow: bool): BuffInfo {
    if id in buffs then buffs[id]
    else BuffInfo(id, prefab.name, prefab.displayName, prefab.totalLifeTime, prefab.maxLayers,
                  Some(prefab.exclusiveTag), allowExtension := allow, isBeneficial := false)
  }

  /** On a coherent cache the ordered checks decide exactly as the one-rule policy does. */
  lemma CheckAndRegisterBuffMatchesPolicy(st: State, inputs: PatchInputs, buffId: int, prefab: Prefab)
    requires CacheCoherent(st.config)
    ensures CheckAndRegisterBuff(st, inputs, buffId, prefab).allow
            <==> PolicyAllows(st.db.buffs, inputs.blacklistIds, ParseIds(st.config.customExtendedBuffIds), buffId)
  {
    GetCustomWhiteListIdsCoherent(st.config);
  }

  /** A blacklisted id is denied whatever its flag or the whitelist say, and nothing changes. */
  lemma BlacklistDominates(st: State, inputs: PatchInputs, buffId: int, prefab: Prefab)
    requires buffId in inputs.blacklistIds
    ensures !PolicyAllows(st.db.buffs, inputs.blacklistIds, ParseIds(st.config.customExtendedBuffIds), buffId)
    ensures CheckAndRegisterBuff(st, inputs, buffId, prefab) == Decision(st, false)
  {
  }

  /** A known id that is not blacklisted only ever reads the whitelist: the registry is untouched. */
  lemma KnownIdLeavesRegistry(st: State, inputs: PatchInputs, buffId: int, prefab: Prefab)
    requires buffId in st.db.buffs
    ensures CheckAndRegisterBuff(st, inputs, buffId, prefab).state.db == st.db
  {
  }

  /**
   * An unknown id that is not blacklisted gains exactly one registry entry,
   * which allows extension exactly when the buff was allowed and is never
   * marked beneficial.
   */
  lemma UnknownIdRegisteredOnce(st: State, inputs: PatchInputs, buffId: int, prefab: Prefab)
    requires buffId !in st.db.buffs && buffId !in inputs.blacklistIds
    ensures var d := CheckAndRegisterBuff(st, inputs, buffId, prefab);
      && d.state.db.buffs.Keys == st.db.buffs.Keys + {buffId}
      && |d.state.db.buffs| == |st.db.buffs| + 1
      && d.state.db.buffs[buffId].allowExtension == d.allow
      && !d.state.db.buffs[buffId].isBeneficial
      && (forall id :: id in st.db.buffs ==> d.state.db.buffs[id] == st.db.buffs[id])
  {
  }

  /**
   * Deciding is stable: asking again about the same id gives the same answer
   * and changes nothing more, since the id is no longer unknown.
   */
  lemma CheckAndRegisterBuffStable(st: State, inputs: PatchInputs, buffId: int, prefab: Prefab, later: Prefab)
    ensures var first := CheckAndRegisterBuff(st, inputs, buffId, prefab);
            CheckAndRegisterBuff(first.state, inputs, buffId, later) == first
  {
  }

  // ---------------------------------------------------------------------
  // Duration arithmetic
  // ---------------------------------------------------------------------

  /** `Mathf.Min`. */
  function Min(x: real, y: real): (r: real)
    ensures r <= x && r <= y && (r == x || r == y)
  {
    if x < y then x else y
  }

  /**
   * The time the postfix writes: the ceiling in infinite mode; otherwise the
   * multiplied base time, added to the previous time when stacking is on;
   * never above the ceiling.
   */
  function FinalTime(config: Config, infinite: bool, baseTime: real, previous: real): (t: real)
    ensures t <= MaxBuffDuration
    ensures infinite ==> t == MaxBuffDuration
    ensures !infinite ==>
      var requested := (if config.allowBuffStack then previous else 0.0) + baseTime * config.buffDurationMultiplier;
      (requested <= MaxBuffDuration ==> t == requested) && (requested > MaxBuffDuration ==> t == MaxBuffDuration)
  {
    var requested :=
      if infinite then MaxBuffDuration
      else if config.allowBuffStack then previous + baseTime * config.buffDurationMultiplier
      else baseTime * config.buffDurationMultiplier;
    Min(requested, MaxBuffDuration)
  }

  /** Infinite mode ignores the multiplier, the stacking switch, the base time and the previous time. */
  lemma InfiniteIgnoresEverything(c1: Config, c2: Config, base1: real, base2: real, prev1: real, prev2: real)
    ensures FinalTime(c1, true, base1, prev1) == FinalTime(c2, true, base2, prev2) == MaxBuffDuration
  {
  }

  /** Without stacking the previous time plays no part. */
  lemma ReplaceIgnoresPrevious(config: Config, baseTime: real, prev1: real, prev2: real)
    requires !config.allowBuffStack
    ensures FinalTime(config, false, baseTime, prev1) == FinalTime(config, false, baseTime, prev2)
  {
  }

  /** With a non-negative previous time, stacking never yields less than replacing. */
  lemma StackingAtLeastReplacing(config: Config, baseTime: real, previous: real)
    requires previous >= 0.0
    ensures FinalTime(config.(allowBuffStack := true), false, baseTime, previous)
            >= FinalTime(config.(allowBuffStack := false), false, baseTime, previous)
  {
  }

  /** With stacking on, more time left before the call never yields less after it. */
  lemma StackingMonotone(config: Config, baseTime: real, prev1: real, prev2: real)
    requires config.allowBuffStack && prev1 <= prev2
    ensures FinalTime(config, false, baseTime, prev1) <= FinalTime(config, false, baseTime, prev2)
  {
  }

  /** Ten seconds at double length on five remaining: 25 when stacking, 20 when replacing. */
  lemma FinalTimeExamples(config: Config)
    requires config.buffDurationMultiplier == 2.0
    ensures FinalTime(config.(allowBuffStack := true), false, 10.0, 5.0) == 25.0
    ensures FinalTime(config.(allowBuffStack := false), false, 10.0, 5.0) == 20.0
  {
  }

  // ---------------------------------------------------------------------
  // Prefix and postfix
  // ---------------------------------------------------------------------

  predicate IsFirstMatch(buffs: seq<RuntimeBuff>, id: int, i: int) {
    0 <= i < |buffs| && buffs[i].id == id && forall j :: 0 <= j < i ==> buffs[j].id != id
  }

  predicate IsLastMatch(buffs: seq<RuntimeBuff>, id: int, i: int) {
    0 <= i < |buffs| && buffs[i].id == id && forall j :: i < j < |buffs| ==> buffs[j].id != id
  }

  predicate HasMatch(buffs: seq<RuntimeBuff>, id: int) {
    exists i :: 0 <= i < |buffs| && buffs[i].id == id
  }

  /** The remaining time of the first buff with `id`, or 0 when there is none. */
  function FirstMatchTime(buffs: seq<RuntimeBuff>, id: int): real {
    if |buffs| == 0 then 0.0
    else if buffs[0].id == id then buffs[0].totalLifeTime
    else FirstMatchTime(buffs[1..], id)
  }

  /** The recursive reading and the positional one agree. */
  lemma {:induction false} FirstMatchTimeIsFirstMatch(buffs: seq<RuntimeBuff>, id: int)
    ensures !HasMatch(buffs, id) ==> FirstMatchTime(buffs, id) == 0.0
    ensures forall i :: IsFirstMatch(buffs, id, i) ==> FirstMatchTime(buffs, id) == buffs[i].totalLifeTime
  {
    if |buffs| > 0 {
      FirstMatchTimeIsFirstMatch(buffs[1..], id);
      if buffs[0].id != id {
        forall i | IsFirstMatch(buffs, id, i) ensures IsFirstMatch(buffs[1..], id, i - 1) {
          assert i != 0;
        }
      }
    }
  }

  /** The previous time the prefix hands to the postfix. */
  function PreviousTime(buffs: Option<seq<RuntimeBuff>>, prefab: Option<Prefab>): real {
    if prefab.None? || buffs.None? then 0.0 else FirstMatchTime(buffs.value, prefab.value.id)
  }

  /**
   * `AddBuff_Prefix`: the remaining time of the first buff on the character
   * with the prefab's id, or 0 when the prefab or the buff list is null or
   * no buff has that id.
   */
  method CapturePreviousTime(buffs: Option<seq<RuntimeBuff>>, prefab: Option<Prefab>) returns (previous: real)
    ensures prefab.None? || buffs.None? || !HasMatch(buffs.value, prefab.value.id) ==> previous == 0.0
    ensures prefab.Some? && buffs.Some? ==>
      forall i :: IsFirstMatch(buffs.value, prefab.value.id, i) ==> previous == buffs.value[i].totalLifeTime
    ensures previous == PreviousTime(buffs, prefab)
  {
    previous := 0.0;
    if prefab.None? || buffs.None? {
      return;
    }
    var list := buffs.value;
    var id := prefab.value.id;
    var i := 0;
    while i < |list|
      invariant 0 <= i <= |list|
      invariant forall j :: 0 <= j < i ==> list[j].id != id
      invariant previous == 0.0
      invariant FirstMatchTime(list, id) == FirstMatchTime(list[i..], id)
    {
      if list[i].id == id {
        previous := list[i].totalLifeTime;
        FirstMatchTimeIsFirstMatch(list, id);
        return;
      }
      assert list[i..][1..] == list[i + 1..];
      i := i + 1;
    }
    FirstMatchTimeIsFirstMatch(list, id);
  }

  /** Scans from the end for the buff the postfix rewrites. */
  method FindLastMatch(buffs: seq<RuntimeBuff>, id: int) returns (target: Option<nat>)
    ensures target.None? <==> !HasMatch(buffs, id)
    ensures target.Some? ==> IsLastMatch(buffs, id, target.value)
  {
    var i := |buffs|;
    while i > 0
      invariant 0 <= i <= |buffs|
      invariant forall j :: i <= j < |buffs| ==> buffs[j].id != id
    {
      i := i - 1;
      if buffs[i].id == id {
        return Some(i);
      }
    }
    return None;
  }

  /**
   * `AddBuff_Postfix`: nothing happens for a null prefab, a null or empty
   * buff list, no buff with the prefab's id, a buff with unlimited lifetime,
   * or a denied buff (the decision's registration still takes place).
   * Otherwise the last buff with the id gets `FinalTime`, and no other buff
   * changes.
   */
  method ApplyDuration(st: State, inputs: PatchInputs, buffs: Option<seq<RuntimeBuff>>, prefab: Option<Prefab>,
                       previous: real)
    returns (after: State, updated: Option<seq<RuntimeBuff>>)
    ensures prefab.None? || buffs.None? || !HasMatch(buffs.value, prefab.value.id) ==> after == st && updated == buffs
    ensures buffs.Some? <==> updated.Some?
    ensures buffs.Some? ==> |updated.value| == |buffs.value|
    ensures prefab.Some? && buffs.Some? ==>
      forall i :: IsLastMatch(buffs.value, prefab.value.id, i) ==>
        var target := buffs.value[i];
        var d := CheckAndRegisterBuff(st, inputs, target.id, prefab.value);
        && (!target.limitedLifeTime ==> after == st && updated == buffs)
        && (target.limitedLifeTime ==> after == d.state)
        && (target.limitedLifeTime && !d.allow ==> updated == buffs)
        && (target.limitedLifeTime && d.allow ==>
              updated.value == buffs.value[i := target.(totalLifeTime :=
                FinalTime(d.state.config, inputs.enableInfiniteDuration, prefab.value.totalLifeTime, previous))])
    ensures buffs.Some? ==> forall k :: 0 <= k < |buffs.value| && updated.value[k] != buffs.value[k] ==>
      && updated.value[k].id == buffs.value[k].id
      && updated.value[k].totalLifeTime <= MaxBuffDuration
      && (inputs.enableInfiniteDuration ==> updated.value[k].totalLifeTime == MaxBuffDuration)
  {
    after, updated := st, buffs;
    if prefab.None? || buffs.None? || |buffs.value| == 0 {
      return;
    }
    var list := buffs.value;
    var p := prefab.value;
    var found := FindLastMatch(list, p.id);
    if found.None? {
      return;
    }
    var i := found.value;
    var target := list[i];
    if !target.limitedLifeTime {
      return;
    }
    var d := CheckAndRegisterBuff(st, inputs, target.id, p);
    after := d.state;
    if !d.allow {
      return;
    }
    var t := FinalTime(d.state.config, inputs.enableInfiniteDuration, p.totalLifeTime, previous);
    updated := Some(list[i := target.(totalLifeTime := t)]);
    LastMatchUnique(list, p.id, i);
  }

  lemma LastMatchUnique(buffs: seq<RuntimeBuff>, id: int, i: int)
    requires IsLastMatch(buffs, id, i)
    ensures forall j :: IsLastMatch(buffs, id, j) ==> j == i
  {
  }

  /** One whole `AddBuff` event as the two patches see it. */
  method AddBuffEvent(st: State, inputs: PatchInputs, before: Option<seq<RuntimeBuff>>,
                      added: Option<seq<RuntimeBuff>>, prefab: Option<Prefab>)
    returns (after: State, updated: Option<seq<RuntimeBuff>>)
    ensures added.Some? <==> updated.Some?
    ensures added.Some? ==> |updated.value| == |added.value|
    ensures added.Some? ==> forall k :: 0 <= k < |added.value| && updated.value[k] != added.value[k] ==>
      updated.value[k].totalLifeTime <= MaxBuffDuration
    ensures prefab.Some? && added.Some? ==>
      forall i :: IsLastMatch(added.value, prefab.value.id, i) && added.value[i].limitedLifeTime ==>
        var d := CheckAndRegisterBuff(st, inputs, added.value[i].id, prefab.value);
        && after == d.state
        && (d.allow ==>
              updated.value[i].totalLifeTime
              == FinalTime(d.state.config, inputs.enableInfiniteDuration, prefab.value.totalLifeTime,
                           PreviousTime(before, prefab)))
    ensures added.Some? && inputs.enableInfiniteDuration ==>
      forall k :: 0 <= k < |added.value| && updated.value[k] != added.value[k] ==>
        updated.value[k].totalLifeTime == MaxBuffDuration
  {
    var previous := CapturePreviousTime(before, prefab);
    after, updated := ApplyDuration(st, inputs, added, prefab, previous);
  }
}

=== FILE: buff_exporter.dfy ===
/**
 * The text `BuffExporter.ExportDatabase` builds (Utilities/BuffExporter.cs):
 * a header line, then one comma-separated line per registry entry. The
 * file write and its path are not modelled; the lines are the result.
 */
module BuffExporter {
  import opened Wrappers
  import opened Numerals
  import opened BuffData
  import opened KnownBuffDatabase
  import LongerBuffConfig

  const Header: string := "ID,显示名称,内部名称,基础时长,最大层数,排他标签,允许延长(AllowExtension),是否增益(IsBeneficial)"

  /** What the duration column shows for an unlimited buff. */
  const InfiniteText: string := "Infinite"

  /** What the tag column shows when there is no tag. */
  const NoTagText: string := "None"

  /** `bool.ToString()`. */
  function BoolToString(b: bool): string {
    if b then "True" else "False"
  }

  /**
   * `EscapeCsv`: null or empty becomes the empty field; a value holding a
   * comma is wrapped in double quotes; anything else is written as is.
   * Quotes inside the value are not doubled.
   */
  function EscapeCsv(s: NullableString): (r: string)
    ensures IsNullOrEmpty(s) ==> r == ""
    ensures !IsNullOrEmpty(s) && ',' !in s.value ==> r == s.value
    ensures !IsNullOrEmpty(s) && ',' in s.value ==> |r| == |s.value| + 2 && r[0] == '"' && r[|r| - 1] == '"' && r[1..|r| - 1] == s.value
  {
    if IsNullOrEmpty(s) then ""
    else if ',' in s.value then "\"" + s.value + "\""
    else s.value
  }

  /** The digits of a non-negative real rounded to one decimal place, half away from zero. */
  function FormatF1(d: real): (r: string)
    requires d >= 0.0
    ensures IsDecimalText(r) && IsDigit(r[0])
  {
    var tenths := (d * 10.0 + 0.5).Floor;
    var whole := NatToString(tenths / 10);
    whole + "." + [DigitChar(tenths % 10)]
  }

  /** Digits, a '.', and one more digit. */
  predicate IsDecimalText(r: string) {
    |r| >= 3 && r[|r| - 2] == '.' && IsDigit(r[|r| - 1]) && AllDigits(r[..|r| - 2])
  }

  /** The number a "digits.digit" text stands for. */
  function DecimalValue(r: string): real
    requires IsDecimalText(r)
  {
    DigitsValue(r[..|r| - 2]) as real + DigitValue(r[|r| - 1]) as real / 10.0
  }

  /** The text is the duration to within half a tenth. */
  lemma FormatF1Accurate(d: real)
    requires d >= 0.0
    ensures Abs(DecimalValue(FormatF1(d)) - d) <= 0.05
  {
    var tenths := (d * 10.0 + 0.5).Floor;
    var r := FormatF1(d);
    var whole := NatToString(tenths / 10);
    assert r[..|r| - 2] == whole;
    NatToStringValue(tenths / 10);
    DigitRoundTrip(tenths % 10);
    assert DecimalValue(r) == (tenths / 10) as real + (tenths % 10) as real / 10.0;
    assert DecimalValue(r) == tenths as real / 10.0;
  }

  /** The duration column: "Infinite" for the unlimited marker, otherwise one decimal place. */
  function DurationField(d: real): (r: string)
    ensures r == InfiniteText <==> d < 0.0
  {
    if d < 0.0 then InfiniteText else FormatF1(d)
  }

  /** The tag column: "None" for a null or empty tag, the raw tag otherwise (not escaped). */
  function TagField(tag: NullableString): (r: string)
    ensures IsNullOrEmpty(tag) ==> r == NoTagText
    ensures !IsNullOrEmpty(tag) ==> r == tag.value
  {
    if IsNullOrEmpty(tag) then NoTagText else tag.value
  }

  /** The eight cells of a data line, in the column order of the header. */
  function RowCells(b: BuffInfo): (cells: seq<string>)
    ensures |cells| == 8
  {
    [IntToString(b.id), EscapeCsv(b.displayName), EscapeCsv(b.internalName), DurationField(b.duration),
     IntToString(b.maxStack), TagField(b.exclusionTag), BoolToString(b.allowExtension), BoolToString(b.isBeneficial)]
  }

  /** One data line: the cells separated by commas. */
  function BuffRow(b: BuffInfo): string {
    JoinCells(RowCells(b))
  }

  /** The unescaped column values of a data line. */
  function RowValues(b: BuffInfo): (values: seq<string>)
    ensures |values| == 8
  {
    [IntToString(b.id), b.displayName.GetOr(""), b.internalName.GetOr(""), DurationField(b.duration),
     IntToString(b.maxStack), TagField(b.exclusionTag), BoolToString(b.allowExtension), BoolToString(b.isBeneficial)]
  }

  // ---------------------------------------------------------------------
  // Reading a line back
  // ---------------------------------------------------------------------

  /** The position of the first `c` in `s`, or `|s|` when there is none. */
  function FindChar(s: string, c: char): (k: nat)
    ensures k <= |s|
    ensures k < |s| ==> s[k] == c
    ensures forall j :: 0 <= j < k ==> s[j] != c
  {
    if |s| == 0 then 0 else if s[0] == c then 0 else 1 + FindChar(s[1..], c)
  }

  lemma FindCharAfter(a: string, b: string, c: char)
    requires c !in a
    ensures FindChar(a + b, c) == |a| + FindChar(b, c)
  {
    var k := FindChar(a + b, c);
    assert forall j :: 0 <= j < |a| ==> (a + b)[j] == a[j];
    var kb := FindChar(b, c);
    assert forall j :: 0 <= j < kb ==> (a + b)[|a| + j] == b[j];
    if |a| + kb < |a + b| {
      assert (a + b)[|a| + kb] == b[kb];
    }
  }

  /**
   * A comma-separated line read the usual way: a field that opens with a
   * double quote runs to the next double quote, which is dropped with it;
   * any other field runs to the next comma. An unterminated quote, or text
   * after a closing quote, leaves the rest of the line as one field.
   */
  function ParseCsvLine(s: string): (fields: seq<string>)
    ensures |fields| >= 1
    decreases |s|
  {
    if |s| > 0 && s[0] == '"' then
      var k := FindChar(s[1..], '"');
      if k == |s| - 1 then [s]
      else
        var rest := s[k + 2..];
        if |rest| == 0 then [s[1..k + 1]]
        else if rest[0] == ',' then [s[1..k + 1]] + ParseCsvLine(rest[1..])
        else [s]
    else
      var k := FindChar(s, ',');
      if k == |s| then [s] else [s[..k]] + ParseCsvLine(s[k + 1..])
  }

  /** `cells` holds the escaped form of each value. */
  predicate EscapedCells(values: seq<string>, cells: seq<string>) {
    |cells| == |values| && forall i :: 0 <= i < |values| ==> cells[i] == EscapeCsv(Some(values[i]))
  }

  /** Fields joined with commas, as the interpolated line writes them. */
  function JoinCells(cells: seq<string>): string {
    LongerBuffConfig.Join(cells, ',')
  }

  /** Reading one escaped value off the front of a line returns the value and the rest of the line. */
  lemma ParseEscapedHead(v: string, tail: string)
    requires '"' !in v
    requires |tail| == 0 || tail[0] == ','
    ensures ParseCsvLine(EscapeCsv(Some(v)) + tail) ==
      if |tail| == 0 then [v] else [v] + ParseCsvLine(tail[1..])
  {
    if ',' in v {
      ParseQuotedHead(v, tail);
    } else {
      ParsePlainHead(v, tail);
    }
  }

  lemma ParseQuotedHead(v: string, tail: string)
    requires '"' !in v && ',' in v
    requires |tail| == 0 || tail[0] == ','
    ensures ParseCsvLine(EscapeCsv(Some(v)) + tail) ==
      if |tail| == 0 then [v] else [v] + ParseCsvLine(tail[1..])
  {
    QuotedLayout(v, tail);
    ParseQuotedLine(EscapeCsv(Some(v)) + tail, v, tail);
  }

  /** A line laid out as a quoted `v` followed by `tail` reads back as `v` and then `tail`'s fields. */
  lemma ParseQuotedLine(s: string, v: string, tail: string)
    requires |tail| == 0 || tail[0] == ','
    requires |s| == |v| + 2 + |tail| && s[0] == '"'
    requires FindChar(s[1..], '"') == |v| && s[1..|v| + 1] == v
    requires |tail| > 0 ==> s[|v| + 2] == tail[0] && s[|v| + 3..] == tail[1..]
    ensures ParseCsvLine(s) == if |tail| == 0 then [v] else [v] + ParseCsvLine(tail[1..])
  {
    ParseQuotedStep(s, |v|);
  }

  /** Where the pieces of a quoted value followed by `tail` sit in the line. */
  lemma QuotedLayout(v: string, tail: string)
    requires '"' !in v && ',' in v
    ensures var s := EscapeCsv(Some(v)) + tail;
      && |s| == |v| + 2 + |tail| && s[0] == '"'
      && FindChar(s[1..], '"') == |v|
      && s[1..|v| + 1] == v
      && (|tail| > 0 ==> s[|v| + 2] == tail[0] && s[|v| + 3..] == tail[1..])
  {
    assert EscapeCsv(Some(v)) + tail == ['"'] + (v + (['"'] + tail));
    QuotedSlices(v, tail);
  }

  lemma QuotedSlices(v: string, tail: string)
    requires '"' !in v
    ensures var s := ['"'] + (v + (['"'] + tail));
      && |s| == |v| + 2 + |tail| && s[0] == '"'
      && FindChar(s[1..], '"') == |v|
      && s[1..|v| + 1] == v
      && (|tail| > 0 ==> s[|v| + 2] == tail[0] && s[|v| + 3..] == tail[1..])
  {
    var body := v + (['"'] + tail);
    var s := ['"'] + body;
    assert s[1..] == body;
    FindCharAfter(v, ['"'] + tail, '"');
    assert body[..|v|] == v;
    assert s[1..|v| + 1] == body[..|v|];
    if |tail| > 0 {
      assert s[|v| + 3..] == tail[1..];
    }
  }

  /** How a line that opens with a quote is read, once the closing quote is found. */
  lemma ParseQuotedStep(s: string, k: nat)
    requires |s| > 0 && s[0] == '"' && k == FindChar(s[1..], '"') && k < |s| - 1
    ensures k + 2 == |s| ==> ParseCsvLine(s) == [s[1..k + 1]]
    ensures k + 2 < |s| && s[k + 2] == ',' ==> ParseCsvLine(s) == [s[1..k + 1]] + ParseCsvLine(s[k + 3..])
  {
    if k + 2 < |s| {
      assert s[k + 2..][0] == s[k + 2];
      assert s[k + 2..][1..] == s[k + 3..];
    }
  }

  lemma ParsePlainHead(v: string, tail: string)
    requires '"' !in v && ',' !in v
    requires |tail| == 0 || tail[0] == ','
    ensures ParseCsvLine(EscapeCsv(Some(v)) + tail) ==
      if |tail| == 0 then [v] else [v] + ParseCsvLine(tail[1..])
  {
    var s := EscapeCsv(Some(v)) + tail;
    assert s == v + tail;
    assert |s| > 0 ==> s[0] != '"' by {
      if |v| > 0 {
        assert s[0] == v[0];
      } else if |tail| > 0 {
        assert s[0] == tail[0];
      }
    }
    FindCharAfter(v, tail, ',');
    assert !(|s| > 0 && s[0] == '"');
    if |tail| > 0 {
      assert FindChar(s, ',') == |v|;
      assert s[..|v|] == v;
      assert s[|v| + 1..] == tail[1..];
      assert ParseCsvLine(s) == [s[..|v|]] + ParseCsvLine(s[|v| + 1..]);
    } else {
      assert FindChar(s, ',') == |s|;
      assert s == v;
    }
  }

  /** A line of escaped values reads back as those values, when no value holds a double quote. */
  lemma {:induction false} ParseJoinedValues(values: seq<string>, cells: seq<string>)
    requires |values| > 0 && EscapedCells(values, cells)
    requires forall i :: 0 <= i < |values| ==> '"' !in values[i]
    ensures ParseCsvLine(JoinCells(cells)) == values
    decreases |values|
  {
    if |values| == 1 {
      ParseEscapedHead(values[0], "");
      assert EscapeCsv(Some(values[0])) + "" == cells[0];
      assert JoinCells(cells) == cells[0];
    } else {
      var rest := JoinCells(cells[1..]);
      assert EscapedCells(values[1..], cells[1..]) by {
        forall i | 0 <= i < |values| - 1 ensures cells[1..][i] == EscapeCsv(Some(values[1..][i])) {
          assert cells[1..][i] == cells[i + 1];
        }
      }
      assert forall i :: 0 <= i < |values| - 1 ==> '"' !in values[1..][i] by {
        forall i | 0 <= i < |values| - 1 ensures '"' !in values[1..][i] {
          assert values[1..][i] == values[i + 1];
        }
      }
      ParseJoinedValues(values[1..], cells[1..]);
      assert JoinCells(cells) == cells[0] + ([','] + rest);
      ParseEscapedHead(values[0], [','] + rest);
      assert ([','] + rest)[1..] == rest;
    }
  }

  /** The line spelled out field by field. */
  lemma BuffRowLayout(b: BuffInfo)
    ensures BuffRow(b) ==
      IntToString(b.id) + "," + EscapeCsv(b.displayName) + "," + EscapeCsv(b.internalName) + ","
      + DurationField(b.duration) + "," + IntToString(b.maxStack) + "," + TagField(b.exclusionTag) + ","
      + BoolToString(b.allowExtension) + "," + BoolToString(b.isBeneficial)
  {
    JoinEight(RowCells(b));
  }

  /** Only the two names can need quoting, as long as the tag holds no comma. */
  lemma RowCellsEscapeValues(b: BuffInfo)
    requires IsNullOrEmpty(b.exclusionTag) || ',' !in b.exclusionTag.value
    ensures EscapedCells(RowValues(b), RowCells(b))
  {
    NumberCellsEscape(b);
    NameCellsEscape(b);
    DurationCellEscapes(b);
    TextCellsEscape(b);
    var v := RowValues(b);
    var c := RowCells(b);
    forall i | 0 <= i < 8 ensures c[i] == EscapeCsv(Some(v[i])) {
      assert i == 0 || i == 1 || i == 2 || i == 3 || i == 4 || i == 5 || i == 6 || i == 7;
    }
  }

  lemma NumberCellsEscape(b: BuffInfo)
    ensures RowCells(b)[0] == EscapeCsv(Some(RowValues(b)[0]))
    ensures RowCells(b)[4] == EscapeCsv(Some(RowValues(b)[4]))
  {
    IntToStringHasNoComma(b.id);
    EscapePlain(IntToString(b.id));
    IntToStringHasNoComma(b.maxStack);
    EscapePlain(IntToString(b.maxStack));
  }

  lemma NameCellsEscape(b: BuffInfo)
    ensures RowCells(b)[1] == EscapeCsv(Some(RowValues(b)[1]))
    ensures RowCells(b)[2] == EscapeCsv(Some(RowValues(b)[2]))
  {
    var cells := RowCells(b);
    var values := RowValues(b);
    assert cells[1] == EscapeCsv(b.displayName) && values[1] == b.displayName.GetOr("");
    assert cells[2] == EscapeCsv(b.internalName) && values[2] == b.internalName.GetOr("");
    EscapeNullAsEmpty(b.displayName);
    EscapeNullAsEmpty(b.internalName);
  }

  lemma DurationCellEscapes(b: BuffInfo)
    ensures RowCells(b)[3] == EscapeCsv(Some(RowValues(b)[3]))
  {
    DurationHasNoComma(b.duration);
    EscapePlain(DurationField(b.duration));
  }

  lemma TextCellsEscape(b: BuffInfo)
    requires IsNullOrEmpty(b.exclusionTag) || ',' !in b.exclusionTag.value
    ensures forall i :: 5 <= i < 8 ==> RowCells(b)[i] == EscapeCsv(Some(RowValues(b)[i]))
  {
    EscapePlain(TagField(b.exclusionTag));
    EscapePlain(BoolToString(b.allowExtension));
    EscapePlain(BoolToString(b.isBeneficial));
  }

  lemma DurationHasNoComma(d: real)
    ensures ',' !in DurationField(d)
  {
    if d >= 0.0 {
      DigitsHaveNoComma(FormatF1(d));
    }
  }

  lemma EscapePlain(v: string)
    requires ',' !in v
    ensures EscapeCsv(Some(v)) == v
  {
  }

  lemma EscapeNullAsEmpty(s: NullableString)
    ensures EscapeCsv(Some(s.GetOr(""))) == EscapeCsv(s)
  {
  }

  lemma JoinCons(cells: seq<string>)
    requires |cells| >= 2
    ensures JoinCells(cells) == cells[0] + "," + JoinCells(cells[1..])
  {
  }

  lemma JoinEight(c: seq<string>)
    requires |c| == 8
    ensures JoinCells(c) == c[0] + "," + c[1] + "," + c[2] + "," + c[3] + "," + c[4] + "," + c[5] + "," + c[6] + "," + c[7]
  {
    JoinCons(c);
    JoinCons(c[1..]);
    JoinCons(c[2..]);
    JoinCons(c[3..]);
    JoinCons(c[4..]);
    JoinCons(c[5..]);
    JoinCons(c[6..]);
    assert c[1..][1..] == c[2..];
    assert c[2..][1..] == c[3..];
    assert c[3..][1..] == c[4..];
    assert c[4..][1..] == c[5..];
    assert c[5..][1..] == c[6..];
    assert c[6..][1..] == c[7..];
    assert JoinCells(c[7..]) == c[7];
  }

  lemma IntToStringHasNoComma(n: int)
    ensures ',' !in IntToString(n)
  {
    var s := IntToString(n);
    if n < 0 {
      assert forall i :: 1 <= i < |s| ==> s[i] == s[1..][i - 1];
    }
  }

  lemma DigitsHaveNoComma(r: string)
    requires |r| >= 3 && r[|r| - 2] == '.' && IsDigit(r[|r| - 1]) && AllDigits(r[..|r| - 2])
    ensures ',' !in r
  {
    assert forall i :: 0 <= i < |r| - 2 ==> r[i] == r[..|r| - 2][i];
  }

  /** The names and the tag hold no double quote, and the tag no comma: the line can be read back. */
  predicate Exportable(b: BuffInfo) {
    && (b.displayName.None? || '"' !in b.displayName.value)
    && (b.internalName.None? || '"' !in b.internalName.value)
    && (b.exclusionTag.None? || ('"' !in b.exclusionTag.value && ',' !in b.exclusionTag.value))
  }

  /** A line that can be read back reads back as its column values. */
  lemma BuffRowReadsBack(b: BuffInfo)
    requires Exportable(b)
    ensures ParseCsvLine(BuffRow(b)) == RowValues(b)
  {
    RowCellsEscapeValues(b);
    RowValuesHaveNoQuote(b);
    ParseJoinedValues(RowValues(b), RowCells(b));
  }

  lemma RowValuesHaveNoQuote(b: BuffInfo)
    requires Exportable(b)
    ensures forall i :: 0 <= i < |RowValues(b)| ==> '"' !in RowValues(b)[i]
  {
    IntToStringHasNoQuote(b.id);
    IntToStringHasNoQuote(b.maxStack);
    if b.duration >= 0.0 {
      DigitsHaveNoQuote(FormatF1(b.duration));
    }
  }

  /**
   * Reading a data line back recovers every column: the id and the stack
   * count as numbers, the names (null read as empty), whether the duration
   * was the unlimited marker, the tag and both flags.
   */
  lemma BuffRowRoundTrip(b: BuffInfo)
    requires Exportable(b) && InInt32(b.id) && InInt32(b.maxStack)
    ensures var fields := ParseCsvLine(BuffRow(b)); |fields| == 8 && ColumnsDescribe(fields, b)
  {
    BuffRowReadsBack(b);
    RowValuesDescribe(b);
  }

  /** What the eight column values of a line say about an entry. */
  predicate ColumnsDescribe(fields: seq<string>, b: BuffInfo)
    requires |fields| == 8
  {
    NumberColumnsDescribe(fields, b) && TextColumnsDescribe(fields, b) && DurationColumnDescribes(fields[3], b.duration)
  }

  /** A finite duration reads back as a one-decimal number within half a tenth of it. */
  predicate DurationColumnDescribes(field: string, d: real) {
    d >= 0.0 ==> IsDecimalText(field) && Abs(DecimalValue(field) - d) <= 0.05
  }

  /** The id and the stack count read back as numbers. */
  predicate NumberColumnsDescribe(fields: seq<string>, b: BuffInfo)
    requires |fields| == 8
  {
    ParseInt32(fields[0]) == Some(b.id) && ParseInt32(fields[4]) == Some(b.maxStack)
  }

  /** The names, the unlimited marker, the tag and the two flags read back. */
  predicate TextColumnsDescribe(fields: seq<string>, b: BuffInfo)
    requires |fields| == 8
  {
    && fields[1] == b.displayName.GetOr("")
    && fields[2] == b.internalName.GetOr("")
    && (fields[3] == InfiniteText <==> b.IsInfinite())
    && (fields[5] == NoTagText <==> IsNullOrEmpty(b.exclusionTag) || b.exclusionTag == Some(NoTagText))
    && (fields[6] == "True" <==> b.allowExtension)
    && (fields[7] == "True" <==> b.isBeneficial)
  }

  lemma RowValuesDescribe(b: BuffInfo)
    requires InInt32(b.id) && InInt32(b.maxStack)
    ensures ColumnsDescribe(RowValues(b), b)
  {
    RowNumbersDescribe(b);
    RowTextDescribes(b);
    RowDurationDescribes(b);
  }

  lemma RowDurationDescribes(b: BuffInfo)
    ensures DurationColumnDescribes(RowValues(b)[3], b.duration)
  {
    if b.duration >= 0.0 {
      assert RowValues(b)[3] == FormatF1(b.duration);
      FormatF1Accurate(b.duration);
    }
  }

  lemma RowNumbersDescribe(b: BuffInfo)
    requires InInt32(b.id) && InInt32(b.maxStack)
    ensures NumberColumnsDescribe(RowValues(b), b)
  {
    var v := RowValues(b);
    assert v[0] == IntToString(b.id) && v[4] == IntToString(b.maxStack);
    NumberColumn(b.id, v[0]);
    NumberColumn(b.maxStack, v[4]);
  }

  lemma RowTextDescribes(b: BuffInfo)
    ensures TextColumnsDescribe(RowValues(b), b)
  {
  }

  lemma NumberColumn(n: int, field: string)
    requires InInt32(n) && field == IntToString(n)
    ensures ParseInt32(field) == Some(n)
  {
    IntToStringRoundTrip(n);
  }

  lemma IntToStringHasNoQuote(n: int)
    ensures '"' !in IntToString(n)
  {
    var s := IntToString(n);
    if n < 0 {
      assert forall i :: 1 <= i < |s| ==> s[i] == s[1..][i - 1];
    }
  }

  lemma DigitsHaveNoQuote(r: string)
    requires |r| >= 3 && r[|r| - 2] == '.' && IsDigit(r[|r| - 1]) && AllDigits(r[..|r| - 2])
    ensures '"' !in r
  {
    assert forall i :: 0 <= i < |r| - 2 ==> r[i] == r[..|r| - 2][i];
  }

  // ---------------------------------------------------------------------
  // The whole export
  // ---------------------------------------------------------------------

  /**
   * The export text: the header, then one line per registry entry. The
   * entries come in dictionary order, which is unspecified; `order` reports
   * the order this run chose.
   */
  method ExportDatabase(db: Database) returns (lines: seq<string>, order: seq<int>)
    ensures |lines| == |order| + 1 == |db.buffs| + 1
    ensures lines[0] == Header
    ensures forall k :: 0 <= k < |order| ==> order[k] in db.buffs && lines[k + 1] == BuffRow(db.buffs[order[k]])
    ensures forall id :: id in db.buffs ==> id in order
    ensures forall i, j :: 0 <= i < j < |order| ==> order[i] != order[j]
  {
    lines := [Header];
    order := [];
    var remaining := db.buffs.Keys;
    while remaining != {}
      invariant remaining <= db.buffs.Keys
      invariant |lines| == |order| + 1 && lines[0] == Header
      invariant |order| + |remaining| == |db.buffs|
      invariant forall k :: 0 <= k < |order| ==> order[k] in db.buffs && order[k] !in remaining
      invariant forall k :: 0 <= k < |order| ==> lines[k + 1] == BuffRow(db.buffs[order[k]])
      invariant forall id :: id in db.buffs ==> id in order || id in remaining
      invariant forall i, j :: 0 <= i < j < |order| ==> order[i] != order[j]
      decreases |remaining|
    {
      var id := AnyKey(remaining);
      lines := lines + [BuffRow(db.buffs[id])];
      order := order + [id];
      remaining := remaining - {id};
    }
  }

  /** Every entry of a registry that can be read back appears in the export, and its line reads back to it. */
  lemma ExportRoundTrip(db: Database, lines: seq<string>, order: seq<int>, id: int)
    requires |lines| == |order| + 1
    requires forall k :: 0 <= k < |order| ==> order[k] in db.buffs && lines[k + 1] == BuffRow(db.buffs[order[k]])
    requires forall i, j :: 0 <= i < j < |order| ==> order[i] != order[j]
    requires WellKeyed(db.buffs) && id in order
    requires Exportable(db.buffs[id]) && InInt32(id) && InInt32(db.buffs[id].maxStack)
    ensures exists k :: 0 <= k < |order| && order[k] == id
              && |ParseCsvLine(lines[k + 1])| == 8
              && ColumnsDescribe(ParseCsvLine(lines[k + 1]), db.buffs[id])
  {
    var k :| 0 <= k < |order| && order[k] == id;
    BuffRowRoundTrip(db.buffs[id]);
  }
}

=== FILE: hardcoded_buffs.dfy ===
/**
 * The hard-coded seed table of `KnownBuffDatabase` (Data/BuffDatabase.cs,
 * `InitializeHardcodedBuffs`) and the registry it produces at start-up.
 */
module HardcodedBuffs {
  import opened Wrappers
  import opened BuffData
  import opened KnownBuffDatabase

  /**
   * One `Add(...)` call of the seed table; the defaults are those of the
   * seed `Add`: no tag, extension not allowed, not beneficial.
   */
  datatype SeedRow = SeedRow(
    id: int,
    name: string,
    disp: string,
    dur: real,
    stack: int,
    tag: NullableString := None,
    allowExtension: bool := false,
    isBeneficial: bool := false)

  /** The definition a row describes. */
  function RowInfo(row: SeedRow): BuffInfo {
    BuffInfo(row.id, Some(row.name), Some(row.disp), row.dur, row.stack, row.tag, row.allowExtension, row.isBeneficial)
  }

  function RowIds(rows: seq<SeedRow>): set<int> {
    set i | 0 <= i < |rows| :: rows[i].id
  }

  predicate DistinctRowIds(rows: seq<SeedRow>) {
    forall i, j :: 0 <= i < j < |rows| ==> rows[i].id != rows[j].id
  }

  /**
   * The seed `Add` applied to each row in order. Every row id ends up
   * present and entries already there are never replaced.
   */
  function SeedAll(buffs: Registry, rows: seq<SeedRow>): (r: Registry)
    ensures r.Keys == buffs.Keys + RowIds(rows)
    ensures forall id :: id in buffs ==> r[id] == buffs[id]
    ensures WellKeyed(buffs) ==> WellKeyed(r)
    decreases |rows|
  {
    if |rows| == 0 then buffs
    else
      var row := rows[0];
      assert RowIds(rows) == {row.id} + RowIds(rows[1..]) by {
        assert forall i :: 0 < i < |rows| ==> rows[i] == rows[1..][i - 1];
      }
      SeedAll(Add(buffs, row.id, Some(row.name), Some(row.disp), row.dur, row.stack, row.tag, row.allowExtension, row.isBeneficial),
              rows[1..])
  }

  /**
   * With distinct row ids, each row whose id was not already present is
   * stored exactly as the row describes it.
   */
  lemma {:induction false} SeedAllRows(buffs: Registry, rows: seq<SeedRow>)
    requires DistinctRowIds(rows)
    ensures forall i :: 0 <= i < |rows| && rows[i].id !in buffs ==>
      rows[i].id in SeedAll(buffs, rows) && SeedAll(buffs, rows)[rows[i].id] == RowInfo(rows[i])
    decreases |rows|
  {
    if |rows| > 0 {
      var row := rows[0];
      var next := Add(buffs, row.id, Some(row.name), Some(row.disp), row.dur, row.stack, row.tag, row.allowExtension, row.isBeneficial);
      assert DistinctRowIds(rows[1..]);
      SeedAllRows(next, rows[1..]);
      forall i | 0 < i < |rows| && rows[i].id !in buffs
        ensures rows[i].id !in next
      {
        assert rows[i].id != row.id;
      }
      forall i | 0 < i < |rows| ensures rows[i] == rows[1..][i - 1] { }
    }
  }

  /** Distinct row ids are as many as the rows. */
  lemma {:induction false} DistinctRowIdsCount(rows: seq<SeedRow>)
    requires DistinctRowIds(rows)
    ensures |RowIds(rows)| == |rows|
    decreases |rows|
  {
    if |rows| > 0 {
      var rest := rows[1..];
      assert DistinctRowIds(rest);
      DistinctRowIdsCount(rest);
      assert RowIds(rows) == {rows[0].id} + RowIds(rest) by {
        assert forall i :: 0 < i < |rows| ==> rows[i] == rest[i - 1];
      }
      assert rows[0].id !in RowIds(rest) by {
        forall i | 0 <= i < |rest| ensures rest[i].id != rows[0].id {
          assert rest[i] == rows[i + 1];
        }
      }
    }
  }

  /** Region "1. Negative status effects". */
  const NegativeStatus: seq<SeedRow> := [
    SeedRow(1001, "1001_Buff_BleedS", "出血", 25.0, 3, Some("Bleeding")),
    SeedRow(1002, "1002_Buff_BleedUnlimit", "出血", -1.0, 5, Some("Bleeding")),
    SeedRow(1003, "1003_Buff_BoneCrack", "骨折", -1.0, 3, None),
    SeedRow(1004, "1004_Buff_Wound", "创伤", -1.0, 3, None),
    SeedRow(1061, "1061_Buff_PoisonS", "中毒", 15.0, 10, Some("Poison")),
    SeedRow(1122, "1122_Buff_PoisonLow", "弱毒", 14.0, 15, Some("Poison")),
    SeedRow(1121, "1121_Buff_Burn", "点燃", 10.0, 3, Some("Burning")),
    SeedRow(1125, "1125_Buff_BurnBig", "燃烧", 10.0, 5, Some("Burning")),
    SeedRow(1071, "1071_Buff_Electric", "触电", 3.0, 4, Some("Electric")),
    SeedRow(1073, "1073_Buff_ElectricGrenade", "触电", 3.0, 1, None),
    SeedRow(1111, "1111_Buff_Space", "扰动", 5.0, 12, None),
    SeedRow(1112, "1112_Buff_Space2", "扭曲", 5.0, 12, None),
    SeedRow(1117, "1117_Buff_SpaceGun", "碎裂", 5.0, 12, Some("Space")),
    SeedRow(1123, "1123_Buff_Nauseous", "恶心", 10.0, 1, Some("Nauseous")),
    SeedRow(1124, "1124_Buff_Ghost", "害怕", 12.0, 8, Some("Ghost")),
    SeedRow(1081, "1081_Buff_Pain", "疼痛", 0.5, 1, Some("Pain"), false),
    SeedRow(1041, "1041_Buff_Stun", "震慑", 7.0, 1, Some("Stun"))
  ]

  /** Region "2. Status immunities (beneficial)". */
  const Immunity: seq<SeedRow> := [
    SeedRow(1019, "1019_buff_Injector_BleedResist", "出血免疫", 60.0, 1, Some("Bleeding"), true, true),
    SeedRow(1491, "1491_buff_equip_BleedResist", "出血免疫", 1.5, 1, Some("Bleeding"), false, true),
    SeedRow(1492, "1492_buff_equip_PoisonResist", "免疫中毒", 1.5, 1, Some("Poison"), false, true),
    SeedRow(1493, "1493_buff_equip_ElecResist", "免疫感电", 1.5, 1, Some("Electric"), false, true),
    SeedRow(1494, "1494_buff_equip_BurnResist", "免疫点燃", 1.5, 1, Some("Burning"), false, true),
    SeedRow(1495, "1495_buff_equip_SpaceResist", "免疫碎裂", 1.5, 1, Some("Space"), false, true),
    SeedRow(1496, "1496_buff_equip_NauseousResist", "免疫恶心", 1.5, 1, Some("Nauseous"), false, true),
    SeedRow(1497, "1497_buff_equip_StunResist", "免疫震慑", 1.5, 1, Some("Stun"), false, true),
    SeedRow(1498, "1498_buff_equip_GhostResist", "免疫害怕", 1.5, 1, Some("Ghost"), false, true)
  ]

  /** Region "3. Carry weight". */
  const Weight: seq<SeedRow> := [
    SeedRow(1021, "1021_Buff_Weight_Light", "轻盈", -1.0, 1, Some("Weight")),
    SeedRow(1022, "1022_Buff_Weight_Heavy", "负重", -1.0, 1, Some("Weight")),
    SeedRow(1023, "1023_Buff_Weight_SuperHeavy", "超重", -1.0, 1, Some("Weight")),
    SeedRow(1024, "1024_Buff_Weight_Overweight", "无法承受", -1.0, 1, Some("Weight"))
  ]

  /** Region "4. Survival". */
  const Survival: seq<SeedRow> := [
    SeedRow(1, "0001_Buff_Thirsty", "脱水", -1.0, 1, Some("Thirsty")),
    SeedRow(1032, "1032_Buff_Starve", "饥饿", -1.0, 3, Some("Starve"))
  ]

  /** Region "5. Injector boosts (beneficial)". */
  const Injectors: seq<SeedRow> := [
    SeedRow(1011, "1011_Buff_AddSpeed", "加速", 120.0, 1, None, true, true),
    SeedRow(1014, "1014_Buff_InjectorStamina", "持久", 120.0, 1, None, true, true),
    SeedRow(1013, "1013_Buff_InjectorArmor", "硬化", 120.0, 1, None, true, true),
    SeedRow(1012, "1012_Buff_InjectorMaxWeight", "负重提升", 240.0, 1, None, true, true),
    SeedRow(1015, "1015_Buff_InjectorMeleeDamage", "力量", 30.0, 1, None, true, true),
    SeedRow(1016, "1016_Buff_InjectorMeleeDamageDebuff", "萎靡", 60.0, 1, None, false, false),
    SeedRow(1017, "1017_Buff_InjectorRecoilControl", "强翅", 60.0, 1, None, true, true),
    SeedRow(1018, "1018_Buff_HealForWhile", "回复", 30.0, 1, None, true, true)
  ]

  /** Region "6. Resistances (beneficial)". */
  const Resistances: seq<SeedRow> := [
    SeedRow(1072, "1072_Buff_ElecResistShort", "抗电", 120.0, 1, None, true, true),
    SeedRow(1074, "1074_Buff_FireResistShort", "抗火", 120.0, 1, None, true, true),
    SeedRow(1075, "1075_Buff_PoisonResistShort", "抗毒", 120.0, 1, None, true, true),
    SeedRow(1076, "1076_Buff_SpaceResistShort", "抗空间", 120.0, 1, None, true, true),
    SeedRow(1115, "1115_Buff_SpaceResistLow", "空间减伤（小）", 120.0, 1, Some("Space"), true, true),
    SeedRow(1116, "1116_Buff_SpaceResistHigh", "空间减伤（大）", 120.0, 1, Some("Space"), true, true),
    SeedRow(1113, "1113_Buff_StormProtection1", "弱效空间抵抗", 120.0, 1, Some("StormProtection"), true, true),
    SeedRow(1114, "1114_Buff_StormProtection2", "强效空间抵抗", 120.0, 1, Some("StormProtection"), true, true)
  ]

  /** Region "7. Pain relief". */
  const Pain: seq<SeedRow> := [
    SeedRow(1082, "1082_Buff_PainResistShort", "镇静", 45.0, 1, Some("Pain"), true, true),
    SeedRow(1083, "1083_Buff_PainResistMiddle", "镇静", 180.0, 1, Some("Pain"), true, true),
    SeedRow(1084, "1084_Buff_PainResistLong", "镇静", 300.0, 1, Some("Pain"), true, true)
  ]

  /** Region "8. Emotions". */
  const Emotions: seq<SeedRow> := [
    SeedRow(1091, "1091_Buff_HotBlood", "热血", 180.0, 1, None, true, true),
    SeedRow(1092, "1092_Buff_Injector_HotBlood_Trigger", "易怒", 60.0, 1, None, true, true),
    SeedRow(1093, "1093_Buff_Injector_HotBlood_SpeedDamage", "愤怒", 30.0, 7, None, true, true),
    SeedRow(1101, "1101_Buff_Happy", "高兴", 90.0, 1, Some("Pain"), true, true)
  ]

  /** Region "9. Stealth and vision (beneficial)". */
  const Vision: seq<SeedRow> := [
    SeedRow(1201, "1201_Buff_NightVision", "明视", 200.0, 1, None, true, true),
    SeedRow(1202, "1202_Buff_PaperBox", "伪装", 200.0, 1, None, false, true),
    SeedRow(1204, "1204_Buff_PaperBoxMelee", "伪装", 1.0, 1, None, false, true)
  ]

  /** Region "Boss, totem, hidden and equipment buffs". */
  const Misc: seq<SeedRow> := [
    SeedRow(1301, "1301_Buff_Boss_Heal_StormFire", "回复", -1.0, 1, None),
    SeedRow(1302, "1302_Buff_Boss_Heal_StormSpace", "回复", -1.0, 1, None),
    SeedRow(1303, "1303_Buff_Boss_Trigger_School", "易怒", -1.0, 1, None),
    SeedRow(1304, "1304_Buff_Boss_SpeedDamage_School", "愤怒", 30.0, 10, None),
    SeedRow(1305, "1305_Buff_Boss_Hurt_StormSpace", "干枯", -1.0, 3, None),
    SeedRow(1306, "1306_Buff_Boss_Hurt_StormFire", "干枯", -1.0, 3, None),
    SeedRow(1307, "1307_Buff_Boss_RedBoss", "*Buff_Red*", -1.0, 3, None),
    SeedRow(1481, "1481_Buff_Totem_Heal1", "回复", 30.0, 1, None, true, true),
    SeedRow(1900, "1900_buff_Totem_Describe_hurt", "图腾诅咒", 1.2, 1, None),
    SeedRow(1205, "1205_Buff_DarkCarrot", "1000%", 12.0, 1, None, false, true),
    SeedRow(1499, "1203_Buff_RedEye", "???", 999.0, 1, None),
    SeedRow(1401, "1401_buff_equip_Hurt", "干枯", 25.0, 3, None),
    SeedRow(1402, "1402_buff_equip_FC_Buff", "高手", 10.0, 10, None, false, true),
    SeedRow(1403, "1403_buff_equip_FC_Remove", "高手", 10.0, 1, None),
    SeedRow(1051, "1051_Buff_Base", "基地", -1.0, 1, None)
  ]

  /** The seed rows in source order. */
  const SeedTable: seq<SeedRow> := NegativeStatus + Immunity + Weight + Survival + Injectors + Resistances + Pain + Emotions + Vision + Misc

  /** The position of each seed id in the table (-1 for any other id). */
  function SeedPosition(id: int): int {
    match id
    case 1001 => 0 case 1002 => 1 case 1003 => 2 case 1004 => 3 case 1061 => 4 case 1122 => 5
    case 1121 => 6 case 1125 => 7 case 1071 => 8 case 1073 => 9 case 1111 => 10 case 1112 => 11
    case 1117 => 12 case 1123 => 13 case 1124 => 14 case 1081 => 15 case 1041 => 16
    case 1019 => 17 case 1491 => 18 case 1492 => 19 case 1493 => 20 case 1494 => 21 case 1495 => 22
    case 1496 => 23 case 1497 => 24 case 1498 => 25
    case 1021 => 26 case 1022 => 27 case 1023 => 28 case 1024 => 29
    case 1 => 30 case 1032 => 31
    case 1011 => 32 case 1014 => 33 case 1013 => 34 case 1012 => 35 case 1015 => 36 case 1016 => 37
    case 1017 => 38 case 1018 => 39
    case 1072 => 40 case 1074 => 41 case 1075 => 42 case 1076 => 43 case 1115 => 44 case 1116 => 45
    case 1113 => 46 case 1114 => 47
    case 1082 => 48 case 1083 => 49 case 1084 => 50
    case 1091 => 51 case 1092 => 52 case 1093 => 53 case 1101 => 54
    case 1201 => 55 case 1202 => 56 case 1204 => 57
    case 1301 => 58 case 1302 => 59 case 1303 => 60 case 1304 => 61 case 1305 => 62 case 1306 => 63
    case 1307 => 64 case 1481 => 65 case 1900 => 66 case 1205 => 67 case 1499 => 68 case 1401 => 69
    case 1402 => 70 case 1403 => 71 case 1051 => 72
    case _ => -1
  }

  /** Every row of `rows` sits at its id's position, counting from `offset`. */
  predicate PositionedFrom(rows: seq<SeedRow>, offset: int) {
    forall k :: 0 <= k < |rows| ==> SeedPosition(rows[k].id) == offset + k
  }

  lemma PositionedAppend(a: seq<SeedRow>, b: seq<SeedRow>, offset: int)
    requires PositionedFrom(a, offset) && PositionedFrom(b, offset + |a|)
    ensures PositionedFrom(a + b, offset)
  {
    forall k | 0 <= k < |a + b| ensures SeedPosition((a + b)[k].id) == offset + k {
      if k >= |a| {
        assert (a + b)[k] == b[k - |a|];
      }
    }
  }

  lemma NegativeStatusPositioned()
    ensures PositionedFrom(NegativeStatus, 0)
  {
    forall k | 0 <= k < |NegativeStatus| ensures SeedPosition(NegativeStatus[k].id) == 0 + k {
      assert k == 0 || k == 1 || k == 2 || k == 3 || k == 4 || k == 5 || k == 6 || k == 7 || k == 8
        || k == 9 || k == 10 || k == 11 || k == 12 || k == 13 || k == 14 || k == 15 || k == 16;
    }
  }

  lemma ImmunityPositioned()
    ensures PositionedFrom(Immunity, 17)
  {
    forall k | 0 <= k < |Immunity| ensures SeedPosition(Immunity[k].id) == 17 + k {
      assert k == 0 || k == 1 || k == 2 || k == 3 || k == 4 || k == 5 || k == 6 || k == 7 || k == 8;
    }
  }

  lemma WeightPositioned()
    ensures PositionedFrom(Weight, 26)
  {
    forall k | 0 <= k < |Weight| ensures SeedPosition(Weight[k].id) == 26 + k {
      assert k == 0 || k == 1 || k == 2 || k == 3;
    }
  }

  lemma SurvivalPositioned()
    ensures PositionedFrom(Survival, 30)
  {
    forall k | 0 <= k < |Survival| ensures SeedPosition(Survival[k].id) == 30 + k {
      assert k == 0 || k == 1;
    }
  }

  lemma InjectorsPositioned()
    ensures PositionedFrom(Injectors, 32)
  {
    forall k | 0 <= k < |Injectors| ensures SeedPosition(Injectors[k].id) == 32 + k {
      assert k == 0 || k == 1 || k == 2 || k == 3 || k == 4 || k == 5 || k == 6 || k == 7;
    }
  }

  lemma ResistancesPositioned()
    ensures PositionedFrom(Resistances, 40)
  {
    forall k | 0 <= k < |Resistances| ensures SeedPosition(Resistances[k].id) == 40 + k {
      assert k == 0 || k == 1 || k == 2 || k == 3 || k == 4 || k == 5 || k == 6 || k == 7;
    }
  }

  lemma PainPositioned()
    ensures PositionedFrom(Pain, 48)
  {
    forall k | 0 <= k < |Pain| ensures SeedPosition(Pain[k].id) == 48 + k {
      assert k == 0 || k == 1 || k == 2;
    }
  }

  lemma EmotionsPositioned()
    ensures PositionedFrom(Emotions, 51)
  {
    forall k | 0 <= k < |Emotions| ensures SeedPosition(Emotions[k].id) == 51 + k {
      assert k == 0 || k == 1 || k == 2 || k == 3;
    }
  }

  lemma VisionPositioned()
    ensures PositionedFrom(Vision, 55)
  {
    forall k | 0 <= k < |Vision| ensures SeedPosition(Vision[k].id) == 55 + k {
      assert k == 0 || k == 1 || k == 2;
    }
  }

  lemma MiscPositioned()
    ensures PositionedFrom(Misc, 58)
  {
    MiscHeadPositioned();
    MiscTailPositioned();
  }

  lemma MiscHeadPositioned()
    ensures forall k :: 0 <= k < 8 ==> SeedPosition(Misc[k].id) == 58 + k
  {
    forall k | 0 <= k < 8 ensures SeedPosition(Misc[k].id) == 58 + k {
      assert k == 0 || k == 1 || k == 2 || k == 3 || k == 4 || k == 5 || k == 6 || k == 7;
    }
  }

  lemma MiscTailPositioned()
    ensures forall k :: 8 <= k < |Misc| ==> SeedPosition(Misc[k].id) == 58 + k
  {
    forall k | 8 <= k < |Misc| ensures SeedPosition(Misc[k].id) == 58 + k {
      assert k == 8 || k == 9 || k == 10 || k == 11 || k == 12 || k == 13 || k == 14;
    }
  }

  /** Each row sits at its id's own position. */
  lemma SeedPositions()
    ensures PositionedFrom(SeedTable, 0)
  {
    NegativeStatusPositioned();
    ImmunityPositioned();
    PositionedAppend(NegativeStatus, Immunity, 0);
    WeightPositioned();
    PositionedAppend(NegativeStatus + Immunity, Weight, 0);
    SurvivalPositioned();
    PositionedAppend(NegativeStatus + Immunity + Weight, Survival, 0);
    InjectorsPositioned();
    PositionedAppend(NegativeStatus + Immunity + Weight + Survival, Injectors, 0);
    ResistancesPositioned();
    PositionedAppend(NegativeStatus + Immunity + Weight + Survival + Injectors, Resistances, 0);
    PainPositioned();
    PositionedAppend(NegativeStatus + Immunity + Weight + Survival + Injectors + Resistances, Pain, 0);
    EmotionsPositioned();
    PositionedAppend(NegativeStatus + Immunity + Weight + Survival + Injectors + Resistances + Pain, Emotions, 0);
    VisionPositioned();
    PositionedAppend(NegativeStatus + Immunity + Weight + Survival + Injectors + Resistances + Pain + Emotions, Vision, 0);
    MiscPositioned();
    PositionedAppend(NegativeStatus + Immunity + Weight + Survival + Injectors + Resistances + Pain + Emotions + Vision, Misc, 0);
  }

  /** No two seed rows share an id. */
  lemma SeedIdsDistinct()
    ensures DistinctRowIds(SeedTable)
  {
    SeedPositions();
  }

  /**
   * The registry at start-up: every seed row is present exactly as written,
   * there are no other entries, and the sync latch is clear.
   */
  function InitializeHardcodedBuffs(): (db: Database)
    ensures !db.hasSyncedWithGame
    ensures WellKeyed(db.buffs)
    ensures db.buffs.Keys == RowIds(SeedTable) && |db.buffs| == |SeedTable|
    ensures forall i :: 0 <= i < |SeedTable| ==>
      SeedTable[i].id in db.buffs && db.buffs[SeedTable[i].id] == RowInfo(SeedTable[i])
  {
    SeedIdsDistinct();
    SeedAllRows(map[], SeedTable);
    DistinctRowIdsCount(SeedTable);
    Database(SeedAll(map[], SeedTable), false)
  }

  /**
   * Start-up followed by a sync in which the game reports bleeding (1001)
   * with 30 seconds instead of the seeded 25: the registry takes the new
   * duration and keeps the seeded policy flags.
   */
  lemma SeededBleedingResynced()
    ensures var seeded := InitializeHardcodedBuffs();
      var live := CatalogEntry(1001, Some("1001_Buff_BleedS"), Some("出血"), 30.0, true, 3, "Bleeding");
      var synced := SyncWithGame(seeded, [live]).db;
      && seeded.buffs[1001].duration == 25.0
      && synced.buffs[1001].duration == 30.0
      && synced.buffs[1001].allowExtension == seeded.buffs[1001].allowExtension == false
      && synced.buffs[1001].exclusionTag == Some("Bleeding")
  {
    var seeded := InitializeHardcodedBuffs();
    var live := CatalogEntry(1001, Some("1001_Buff_BleedS"), Some("出血"), 30.0, true, 3, "Bleeding");
    assert SeedTable[0] == NegativeStatus[0];
    assert seeded.buffs[1001] == RowInfo(SeedTable[0]);
    SyncWithGameValues(seeded, [live]);
    assert [live][0] == live;
  }
}

=== FILE: known_buff_database.dfy ===
/**
 * The registry of buff definitions (Data/BuffDatabase.cs, static class
 * `KnownBuffDatabase` and `ModBuffRegistry`). The process-wide dictionary
 * and the one-shot sync latch become an explicit `Database` value that each
 * operation takes and returns.
 */
module KnownBuffDatabase {
  import opened Wrappers
  import opened BuffData

  type Registry = map<int, BuffInfo>

  /** Every entry is stored under its own id, as every insertion path does. */
  predicate WellKeyed(buffs: Registry) {
    forall id :: id in buffs ==> buffs[id].id == id
  }

  /** The dictionary `_buffs` and the latch `_hasSyncedWithGame`. */
  datatype Database = Database(buffs: Registry, hasSyncedWithGame: bool)

  /**
   * Insert-if-absent: `after` holds `info` under its id when that id was
   * free, and every entry of `before` is still there, untouched.
   */
  predicate InsertedIfAbsent(before: Registry, after: Registry, info: BuffInfo) {
    && after.Keys == before.Keys + {info.id}
    && (forall id :: id in before ==> id in after && after[id] == before[id])
    && (info.id !in before ==> after[info.id] == info)
  }

  /**
   * The seed table's private `Add`: inserts only when the id is absent.
   * Unlike the constructor, extension defaults to false here.
   */
  function Add(buffs: Registry, id: int, name: NullableString, disp: NullableString, dur: real, stack: int,
               tag: NullableString := None, allowExtension: bool := false, isBeneficial: bool := false): (r: Registry)
    ensures InsertedIfAbsent(buffs, r, BuffInfo(id, name, disp, dur, stack, tag, allowExtension, isBeneficial))
    ensures id in buffs ==> r == buffs
    ensures WellKeyed(buffs) ==> WellKeyed(r)
  {
    if id !in buffs then buffs[id := BuffInfo(id, name, disp, dur, stack, tag, allowExtension, isBeneficial)] else buffs
  }

  /** Calling the seed `Add` twice with the same arguments inserts once. */
  lemma AddIdempotent(buffs: Registry, id: int, name: NullableString, disp: NullableString, dur: real, stack: int,
                      tag: NullableString, allowExtension: bool, isBeneficial: bool)
    ensures var once := Add(buffs, id, name, disp, dur, stack, tag, allowExtension, isBeneficial);
            Add(once, id, name, disp, dur, stack, tag, allowExtension, isBeneficial) == once
            && |once| == |buffs| + (if id in buffs then 0 else 1)
  {
  }

  /** `TryGetBuff`: the stored definition, if any. */
  function TryGetBuff(db: Database, id: int): (r: Option<BuffInfo>)
    ensures r.Some? <==> id in db.buffs
    ensures r.Some? ==> r.value == db.buffs[id]
  {
    if id in db.buffs then Some(db.buffs[id]) else None
  }

  /** The new state and the `bool` the C# method returns. */
  datatype Registration = Registration(db: Database, inserted: bool)

  /**
   * `RegisterExternal`: false and no change when the id is taken; otherwise
   * exactly that entry is added and the result is true.
   */
  function RegisterExternal(db: Database, info: BuffInfo): (r: Registration)
    ensures r.inserted <==> info.id !in db.buffs
    ensures !r.inserted ==> r.db == db
    ensures InsertedIfAbsent(db.buffs, r.db.buffs, info)
    ensures r.db.hasSyncedWithGame == db.hasSyncedWithGame
    ensures |r.db.buffs| == |db.buffs| + (if r.inserted then 1 else 0)
    ensures WellKeyed(db.buffs) ==> WellKeyed(r.db.buffs)
  {
    if info.id in db.buffs then Registration(db, false)
    else Registration(db.(buffs := db.buffs[info.id := info]), true)
  }

  /**
   * `ModBuffRegistry.RegisterNewBuff`: builds a definition with the
   * constructor's defaults (extension allowed) and registers it.
   */
  function RegisterNewBuff(db: Database, id: int, internalName: NullableString, displayName: NullableString,
                           duration: real, maxStack: int, exclusionTag: NullableString := None,
                           allowExtension: bool := true, isBeneficial: bool := false): (r: Registration)
    ensures r.inserted <==> id !in db.buffs
    ensures !r.inserted ==> r.db == db
    ensures r.inserted ==>
      && r.db.buffs.Keys == db.buffs.Keys + {id}
      && r.db.buffs[id] == BuffInfo(id, internalName, displayName, duration, maxStack, exclusionTag, allowExtension, isBeneficial)
    ensures InsertedIfAbsent(db.buffs, r.db.buffs,
                             BuffInfo(id, internalName, displayName, duration, maxStack, exclusionTag, allowExtension, isBeneficial))
    ensures r.db.hasSyncedWithGame == db.hasSyncedWithGame
  {
    RegisterExternal(db, BuffInfo(id, internalName, displayName, duration, maxStack, exclusionTag, allowExtension, isBeneficial))
  }

  /**
   * One buff prefab as the game's catalog scan reports it (the
   * `Utilities.BuffInfo` record). The exclusion tag is the name of an enum
   * value, so it is never null.
   */
  datatype CatalogEntry = CatalogEntry(
    id: int,
    name: NullableString,
    displayName: NullableString,
    totalLifeTime: real,
    limitedLifeTime: bool,
    maxLayers: int,
    exclusiveTag: string)

  /** The enum value that means "no exclusion group". */
  const NotExclusive: string := "NotExclusive"

  /** A buff without a limited lifetime is recorded with the -1 "infinite" marker. */
  function RuntimeDuration(e: CatalogEntry): real {
    if e.limitedLifeTime then e.totalLifeTime else -1.0
  }

  /** Sync normalises the "no group" tag to null. */
  function RuntimeTag(e: CatalogEntry): NullableString {
    if e.exclusiveTag == NotExclusive then None else Some(e.exclusiveTag)
  }

  /** The definition sync creates for a buff the registry did not know. */
  function Discovered(e: CatalogEntry): BuffInfo {
    BuffInfo(e.id, e.name, e.displayName, RuntimeDuration(e), e.maxLayers, RuntimeTag(e),
             allowExtension := false, isBeneficial := false)
  }

  /** A known definition corrected with the live values of `e`. */
  function Reconciled(info: BuffInfo, e: CatalogEntry): BuffInfo {
    UpdateRuntimeValues(info, RuntimeDuration(e), e.maxLayers, RuntimeTag(e))
  }

  function CatalogIds(catalog: seq<CatalogEntry>): set<int> {
    set i | 0 <= i < |catalog| :: catalog[i].id
  }

  lemma CatalogIdsCons(catalog: seq<CatalogEntry>)
    requires |catalog| > 0
    ensures CatalogIds(catalog) == {catalog[0].id} + CatalogIds(catalog[1..])
  {
    var rest := catalog[1..];
    forall x | x in CatalogIds(catalog)
      ensures x in {catalog[0].id} + CatalogIds(rest)
    {
      var i :| 0 <= i < |catalog| && catalog[i].id == x;
      if i > 0 {
        assert rest[i - 1].id == x;
      }
    }
    forall x | x in CatalogIds(rest)
      ensures x in CatalogIds(catalog)
    {
      var i :| 0 <= i < |rest| && rest[i].id == x;
      assert catalog[i + 1].id == x;
    }
  }

  /** The registry after the sync loop, and the two counters it logs. */
  datatype SyncTally = SyncTally(buffs: Registry, updatedCount: nat, newModCount: nat)

  /**
   * The `foreach` of `SyncWithGame` over the remaining catalog entries:
   * a known id is reconciled and counted as updated, an unknown one is
   * added with extension and benefit off and counted as new.
   */
  function SyncEntries(buffs: Registry, catalog: seq<CatalogEntry>): (r: SyncTally)
    ensures r.updatedCount + r.newModCount == |catalog|
    decreases |catalog|
  {
    if |catalog| == 0 then SyncTally(buffs, 0, 0)
    else
      var e := catalog[0];
      if e.id in buffs then
        var rest := SyncEntries(buffs[e.id := Reconciled(buffs[e.id], e)], catalog[1..]);
        rest.(updatedCount := rest.updatedCount + 1)
      else
        var rest := SyncEntries(buffs[e.id := Discovered(e)], catalog[1..]);
        rest.(newModCount := rest.newModCount + 1)
  }

  /** The registry one loop iteration leaves behind. */
  function SyncStep(buffs: Registry, e: CatalogEntry): Registry {
    if e.id in buffs then buffs[e.id := Reconciled(buffs[e.id], e)] else buffs[e.id := Discovered(e)]
  }

  lemma SyncEntriesUnfold(buffs: Registry, catalog: seq<CatalogEntry>)
    requires |catalog| > 0
    ensures SyncEntries(buffs, catalog).buffs == SyncEntries(SyncStep(buffs, catalog[0]), catalog[1..]).buffs
    ensures SyncEntries(buffs, catalog).newModCount ==
      SyncEntries(SyncStep(buffs, catalog[0]), catalog[1..]).newModCount + (if catalog[0].id in buffs then 0 else 1)
  {
  }

  /**
   * Sync never removes an entry, adds exactly the catalog ids, never changes
   * the identity or policy flags of a known entry, leaves entries the
   * catalog does not mention alone, and gives new entries no extension and
   * no benefit flag.
   */
  lemma {:induction false} SyncEntriesFrame(buffs: Registry, catalog: seq<CatalogEntry>)
    ensures var r := SyncEntries(buffs, catalog).buffs;
      && r.Keys == buffs.Keys + CatalogIds(catalog)
      && (forall id :: id in buffs ==> SameIdentityAndPolicy(buffs[id], r[id]))
      && (forall id :: id in buffs && id !in CatalogIds(catalog) ==> r[id] == buffs[id])
      && (forall id :: id in r && id !in buffs ==> !r[id].allowExtension && !r[id].isBeneficial)
      && (WellKeyed(buffs) ==> WellKeyed(r))
    decreases |catalog|
  {
    if |catalog| > 0 {
      var next := SyncStep(buffs, catalog[0]);
      SyncStepFrame(buffs, catalog[0]);
      SyncEntriesUnfold(buffs, catalog);
      SyncEntriesFrame(next, catalog[1..]);
      CatalogIdsCons(catalog);
    }
  }

  /** One loop iteration: the frame of `SyncEntriesFrame` for a single catalog entry. */
  lemma SyncStepFrame(buffs: Registry, e: CatalogEntry)
    ensures var n := SyncStep(buffs, e);
      && n.Keys == buffs.Keys + {e.id}
      && (forall id :: id in buffs ==> SameIdentityAndPolicy(buffs[id], n[id]))
      && (forall id :: id in buffs && id != e.id ==> n[id] == buffs[id])
      && (forall id :: id in n && id !in buffs ==> !n[id].allowExtension && !n[id].isBeneficial)
      && (WellKeyed(buffs) ==> WellKeyed(n))
  {
  }

  lemma SyncStepKeys(buffs: Registry, e: CatalogEntry)
    ensures SyncStep(buffs, e).Keys == buffs.Keys + {e.id}
  {
  }

  /** Processing the first entry removes its id, and only it, from the ids still unknown. */
  lemma UnknownIdsCons(buffs: Registry, catalog: seq<CatalogEntry>)
    requires |catalog| > 0
    ensures |CatalogIds(catalog) - buffs.Keys| ==
      |CatalogIds(catalog[1..]) - SyncStep(buffs, catalog[0]).Keys| + (if catalog[0].id in buffs then 0 else 1)
  {
    var e := catalog[0];
    var nextKeys := SyncStep(buffs, e).Keys;
    SyncStepKeys(buffs, e);
    CatalogIdsCons(catalog);
    UnknownIdsSplit(buffs.Keys, e.id, CatalogIds(catalog[1..]), nextKeys);
  }

  lemma UnknownIdsSplit(known: set<int>, id: int, rest: set<int>, nextKnown: set<int>)
    requires nextKnown == known + {id}
    ensures |({id} + rest) - known| == |rest - nextKnown| + (if id in known then 0 else 1)
  {
    if id in known {
      assert ({id} + rest) - known == rest - nextKnown;
    } else {
      assert ({id} + rest) - known == {id} + (rest - nextKnown);
    }
  }

  /** The "new" counter is the number of catalog ids the registry did not know. */
  lemma {:induction false} SyncEntriesNewCount(buffs: Registry, catalog: seq<CatalogEntry>)
    ensures SyncEntries(buffs, catalog).newModCount == |CatalogIds(catalog) - buffs.Keys|
    decreases |catalog|
  {
    if |catalog| > 0 {
      SyncEntriesUnfold(buffs, catalog);
      SyncEntriesNewCount(SyncStep(buffs, catalog[0]), catalog[1..]);
      UnknownIdsCons(buffs, catalog);
    }
  }

  /** Entry `i` is the last one with its id. */
  predicate LastOccurrence(catalog: seq<CatalogEntry>, i: int) {
    0 <= i < |catalog| && forall j :: i < j < |catalog| ==> catalog[j].id != catalog[i].id
  }

  /** Entry `i` is the only one with its id. */
  predicate OnlyOccurrence(catalog: seq<CatalogEntry>, i: int) {
    0 <= i < |catalog| && forall j :: 0 <= j < |catalog| && j != i ==> catalog[j].id != catalog[i].id
  }

  /** The loop over a catalog is the loop over its first part followed by the loop over the rest. */
  lemma {:induction false} SyncEntriesAppend(buffs: Registry, a: seq<CatalogEntry>, b: seq<CatalogEntry>)
    ensures SyncEntries(buffs, a + b).buffs == SyncEntries(SyncEntries(buffs, a).buffs, b).buffs
    decreases |a|
  {
    if |a| == 0 {
      assert a + b == b;
    } else {
      assert (a + b)[0] == a[0];
      assert (a + b)[1..] == a[1..] + b;
      SyncEntriesUnfold(buffs, a + b);
      SyncEntriesUnfold(buffs, a);
      SyncEntriesAppend(SyncStep(buffs, a[0]), a[1..], b);
    }
  }

  /**
   * A repeated catalog id ends up as its last entry made it: that entry is
   * applied to whatever the entries before it left behind, and nothing after
   * it touches the id again.
   */
  lemma SyncEntriesLastWins(buffs: Registry, catalog: seq<CatalogEntry>, i: int)
    requires LastOccurrence(catalog, i)
    ensures var r := SyncEntries(buffs, catalog).buffs;
      && catalog[i].id in r
      && r[catalog[i].id] == SyncStep(SyncEntries(buffs, catalog[..i]).buffs, catalog[i])[catalog[i].id]
  {
    var e := catalog[i];
    var prefix := catalog[..i];
    var suffix := catalog[i + 1..];
    assert catalog[..i + 1] == prefix + [e];
    assert catalog == catalog[..i + 1] + suffix;
    SyncEntriesAppend(buffs, catalog[..i + 1], suffix);
    SyncEntriesAppend(buffs, prefix, [e]);
    var before := SyncEntries(buffs, prefix).buffs;
    SyncEntriesUnfold(before, [e]);
    assert [e][1..] == [];
    var after := SyncStep(before, e);
    assert SyncEntries(buffs, catalog[..i + 1]).buffs == after;
    assert e.id !in CatalogIds(suffix);
    SyncEntriesFrame(after, suffix);
  }

  /**
   * Each catalog id that occurs once holds exactly what its entry makes of
   * it: the reconciled old definition, or a fresh one.
   */
  lemma SyncEntriesValues(buffs: Registry, catalog: seq<CatalogEntry>)
    ensures forall i :: OnlyOccurrence(catalog, i) ==>
      catalog[i].id in SyncEntries(buffs, catalog).buffs &&
      SyncEntries(buffs, catalog).buffs[catalog[i].id] ==
        (if catalog[i].id in buffs then Reconciled(buffs[catalog[i].id], catalog[i]) else Discovered(catalog[i]))
  {
    forall i | OnlyOccurrence(catalog, i)
      ensures catalog[i].id in SyncEntries(buffs, catalog).buffs &&
        SyncEntries(buffs, catalog).buffs[catalog[i].id] ==
        (if catalog[i].id in buffs then Reconciled(buffs[catalog[i].id], catalog[i]) else Discovered(catalog[i]))
    {
      var e := catalog[i];
      var prefix := catalog[..i];
      SyncEntriesLastWins(buffs, catalog, i);
      SyncEntriesFrame(buffs, prefix);
      assert e.id !in CatalogIds(prefix);
    }
  }

  /** The new state and the counters reported in the sync log line. */
  datatype SyncOutcome = SyncOutcome(db: Database, updatedCount: nat, newModCount: nat)

  /**
   * `SyncWithGame`: a no-op once the latch is set; otherwise the catalog is
   * merged into the registry and the latch is set, even when the catalog is
   * empty (a failed scan yields an empty or partial list).
   */
  function SyncWithGame(db: Database, catalog: seq<CatalogEntry>): (r: SyncOutcome)
    ensures r.db.hasSyncedWithGame
    ensures db.hasSyncedWithGame ==> r == SyncOutcome(db, 0, 0)
    ensures !db.hasSyncedWithGame ==>
      && r.updatedCount + r.newModCount == |catalog|
      && r.newModCount == |CatalogIds(catalog) - db.buffs.Keys|
      && r.db.buffs.Keys == db.buffs.Keys + CatalogIds(catalog)
      && (forall id :: id in db.buffs && id !in CatalogIds(catalog) ==> r.db.buffs[id] == db.buffs[id])
    ensures forall id :: id in db.buffs ==> id in r.db.buffs && SameIdentityAndPolicy(db.buffs[id], r.db.buffs[id])
    ensures forall id :: id in r.db.buffs && id !in db.buffs ==> !r.db.buffs[id].allowExtension && !r.db.buffs[id].isBeneficial
    ensures WellKeyed(db.buffs) ==> WellKeyed(r.db.buffs)
  {
    if db.hasSyncedWithGame then SyncOutcome(db, 0, 0)
    else
      var t := SyncEntries(db.buffs, catalog);
      SyncEntriesFrame(db.buffs, catalog);
      SyncEntriesNewCount(db.buffs, catalog);
      SyncOutcome(Database(t.buffs, true), t.updatedCount, t.newModCount)
  }

  /** A second sync leaves the state exactly as the first one left it. */
  lemma SyncWithGameOnce(db: Database, catalog1: seq<CatalogEntry>, catalog2: seq<CatalogEntry>)
    ensures var first := SyncWithGame(db, catalog1).db;
            SyncWithGame(first, catalog2).db == first
  {
  }

  /**
   * What the first sync makes of each catalog entry whose id occurs once:
   * unknown ids get a fresh definition with a -1 duration when the lifetime
   * is unlimited and a null tag for "NotExclusive"; known ids are reconciled.
   */
  lemma SyncWithGameValues(db: Database, catalog: seq<CatalogEntry>)
    requires !db.hasSyncedWithGame
    ensures forall i :: OnlyOccurrence(catalog, i) && catalog[i].id !in db.buffs ==>
      var b := SyncWithGame(db, catalog).db.buffs[catalog[i].id];
      && b.duration == (if catalog[i].limitedLifeTime then catalog[i].totalLifeTime else -1.0)
      && b.exclusionTag == (if catalog[i].exclusiveTag == "NotExclusive" then None else Some(catalog[i].exclusiveTag))
      && !b.allowExtension && !b.isBeneficial
      && b.internalName == catalog[i].name && b.displayName == catalog[i].displayName
      && b.maxStack == catalog[i].maxLayers
    ensures forall i :: OnlyOccurrence(catalog, i) && catalog[i].id in db.buffs ==>
      SyncWithGame(db, catalog).db.buffs[catalog[i].id] == Reconciled(db.buffs[catalog[i].id], catalog[i])
    ensures forall i :: LastOccurrence(catalog, i) ==>
      SyncWithGame(db, catalog).db.buffs[catalog[i].id] ==
        SyncStep(SyncEntries(db.buffs, catalog[..i]).buffs, catalog[i])[catalog[i].id]
  {
    SyncEntriesValues(db.buffs, catalog);
    forall i | LastOccurrence(catalog, i)
      ensures catalog[i].id in SyncWithGame(db, catalog).db.buffs &&
        SyncWithGame(db, catalog).db.buffs[catalog[i].id] ==
        SyncStep(SyncEntries(db.buffs, catalog[..i]).buffs, catalog[i])[catalog[i].id]
    {
      SyncEntriesLastWins(db.buffs, catalog, i);
    }
  }

  /** Some element of a non-empty set: the next key a dictionary enumeration yields. */
  method AnyKey(keys: set<int>) returns (k: int)
    requires keys != {}
    ensures k in keys
  {
    NonEmptyHasElement(keys);
    k :| k in keys;
  }

  lemma NonEmptyHasElement(keys: set<int>)
    requires keys != {}
    ensures exists k :: k in keys
  {
    if forall k :: k !in keys {
      assert false;
    }
  }

  /**
   * `GetAllowedExtensionBuffIds`: the ids of exactly the entries that allow
   * extension, each once, in the dictionary's (unspecified) order. The
   * registry is an input value, so it cannot be changed.
   */
  method GetAllowedExtensionBuffIds(db: Database) returns (ids: seq<int>)
    ensures forall x :: x in ids <==> exists id :: id in db.buffs && db.buffs[id].allowExtension && db.buffs[id].id == x
    ensures WellKeyed(db.buffs) ==> forall i, j :: 0 <= i < j < |ids| ==> ids[i] != ids[j]
  {
    ids := [];
    var remaining := db.buffs.Keys;
    ghost var visited: set<int> := {};
    while remaining != {}
      invariant remaining <= db.buffs.Keys
      invariant visited == db.buffs.Keys - remaining
      invariant forall x :: x in ids <==> exists id :: id in visited && db.buffs[id].allowExtension && db.buffs[id].id == x
      invariant WellKeyed(db.buffs) ==> forall i :: 0 <= i < |ids| ==> ids[i] in visited
      invariant WellKeyed(db.buffs) ==> forall i, j :: 0 <= i < j < |ids| ==> ids[i] != ids[j]
      decreases |remaining|
    {
      var key := AnyKey(remaining);
      if db.buffs[key].allowExtension {
        ids := ids + [db.buffs[key].id];
      }
      remaining := remaining - {key};
      visited := visited + {key};
    }
  }
}

=== FILE: longer_buff_config.dfy ===
/**
 * The mod's settings (Settings/LongerBuffConfig.cs, static class
 * `LongerBuffConfig`): the duration multiplier, the stacking switch, the
 * user's whitelist string and its lazily parsed, manually invalidated cache.
 * The `OnConfigChanged` event is modelled as a "changed" flag.
 */
module LongerBuffConfig {
  import opened Wrappers
  import opened Numerals
  import opened BuffData

  const DefaultBuffMultiplier: real := 1.0
  const DefaultAllowStack: bool := true

  /** The ceiling every rewritten duration is clamped to: one day in seconds. */
  const MaxBuffDuration: real := 86400.0

  /** The range a saved multiplier must lie in to be accepted by `Load`. */
  const MinSavedMultiplier: real := 1.0
  const MaxSavedMultiplier: real := 20.0

  /** The multiplier setter ignores changes no larger than this. */
  const MultiplierTolerance: real := 0.001

  datatype Config = Config(
    buffDurationMultiplier: real,
    allowBuffStack: bool,
    customExtendedBuffIds: NullableString,
    cachedCustomIds: Option<set<int>>)

  /** The static initial state: defaults, an empty id string, no cache. */
  const InitialConfig: Config := Config(DefaultBuffMultiplier, DefaultAllowStack, Some(""), None)

  // ---------------------------------------------------------------------
  // Whitelist parsing
  // ---------------------------------------------------------------------

  /** `char.IsWhiteSpace`: the Unicode White_Space characters. */
  predicate IsWhiteSpace(c: char) {
    || ('\U{9}' <= c <= '\U{D}') || c == ' ' || c == '\U{85}' || c == '\U{A0}'
    || c == '\U{1680}' || ('\U{2000}' <= c <= '\U{200A}') || c == '\U{2028}' || c == '\U{2029}'
    || c == '\U{202F}' || c == '\U{205F}' || c == '\U{3000}'
  }

  /** `string.IsNullOrWhiteSpace`. */
  predicate IsNullOrWhiteSpace(s: NullableString) {
    s.None? || forall i :: 0 <= i < |s.value| ==> IsWhiteSpace(s.value[i])
  }

  /** The separators of the id list: comma, space, full-width comma, semicolon. */
  predicate IsIdSeparator(c: char) {
    c == ',' || c == ' ' || c == '\U{FF0C}' || c == ';'
  }

  predicate NoSeparator(s: string) {
    forall i :: 0 <= i < |s| ==> !IsIdSeparator(s[i])
  }

  /** All tokens concatenated. */
  function Flatten(tokens: seq<string>): string {
    if |tokens| == 0 then "" else tokens[0] + Flatten(tokens[1..])
  }

  /** The characters of `s` that are not separators, in order. */
  function DropSeparators(s: string): (r: string)
    ensures NoSeparator(r)
  {
    if |s| == 0 then ""
    else if IsIdSeparator(s[0]) then DropSeparators(s[1..])
    else [s[0]] + DropSeparators(s[1..])
  }

  /**
   * `Split(separators, RemoveEmptyEntries)` continued from a partly read
   * token `current`: the maximal separator-free runs, none of them empty.
   */
  function SplitFrom(s: string, current: string): (tokens: seq<string>)
    requires NoSeparator(current)
    ensures forall i :: 0 <= i < |tokens| ==> |tokens[i]| > 0 && NoSeparator(tokens[i])
    decreases |s|
  {
    if |s| == 0 then
      (if |current| == 0 then [] else [current])
    else if IsIdSeparator(s[0]) then
      (if |current| == 0 then [] else [current]) + SplitFrom(s[1..], "")
    else
      SplitFrom(s[1..], current + [s[0]])
  }

  function SplitIds(s: string): (tokens: seq<string>)
    ensures forall i :: 0 <= i < |tokens| ==> |tokens[i]| > 0 && NoSeparator(tokens[i])
  {
    SplitFrom(s, "")
  }

  /** Splitting loses exactly the separators: the tokens hold every other character, in order. */
  lemma {:induction false} SplitFromKeepsText(s: string, current: string)
    requires NoSeparator(current)
    ensures Flatten(SplitFrom(s, current)) == current + DropSeparators(s)
    decreases |s|
  {
    if |s| == 0 {
      if |current| > 0 {
        assert Flatten([current]) == current + Flatten([]);
      }
    } else if IsIdSeparator(s[0]) {
      SplitFromKeepsText(s[1..], "");
      var head := if |current| == 0 then [] else [current];
      FlattenAppend(head, SplitFrom(s[1..], ""));
      if |current| > 0 {
        assert Flatten(head) == current + Flatten([]);
      }
    } else {
      SplitFromKeepsText(s[1..], current + [s[0]]);
      assert current + [s[0]] + DropSeparators(s[1..]) == current + ([s[0]] + DropSeparators(s[1..]));
    }
  }

  lemma {:induction false} FlattenAppend(a: seq<string>, b: seq<string>)
    ensures Flatten(a + b) == Flatten(a) + Flatten(b)
    decreases |a|
  {
    if |a| == 0 {
      assert a + b == b;
    } else {
      FlattenAppend(a[1..], b);
      assert (a + b)[1..] == a[1..] + b;
      assert Flatten(a + b) == a[0] + Flatten(a[1..] + b);
      assert a[0] + (Flatten(a[1..]) + Flatten(b)) == (a[0] + Flatten(a[1..])) + Flatten(b);
    }
  }

  /** The id list written back as text: tokens joined by `separator`. */
  function Join(tokens: seq<string>, separator: char): string {
    if |tokens| == 0 then ""
    else if |tokens| == 1 then tokens[0]
    else tokens[0] + [separator] + Join(tokens[1..], separator)
  }

  /** Reading a separator-free run extends the current token. */
  lemma {:induction false} SplitFromToken(token: string, rest: string, current: string)
    requires NoSeparator(current) && NoSeparator(token)
    ensures SplitFrom(token + rest, current) == SplitFrom(rest, current + token)
    decreases |token|
  {
    if |token| > 0 {
      assert (token + rest)[1..] == token[1..] + rest;
      SplitFromToken(token[1..], rest, current + [token[0]]);
      assert current + [token[0]] + token[1..] == current + token;
    } else {
      assert token + rest == rest;
      assert current + token == current;
    }
  }

  /** Splitting undoes joining with any separator, as long as no token is empty or holds one. */
  lemma {:induction false} SplitJoin(tokens: seq<string>, separator: char)
    requires IsIdSeparator(separator)
    requires forall i :: 0 <= i < |tokens| ==> |tokens[i]| > 0 && NoSeparator(tokens[i])
    ensures SplitIds(Join(tokens, separator)) == tokens
    decreases |tokens|
  {
    if |tokens| == 1 {
      SplitFromToken(tokens[0], "", "");
      assert tokens[0] + "" == tokens[0];
      assert "" + tokens[0] == tokens[0];
    } else if |tokens| > 1 {
      var rest := Join(tokens[1..], separator);
      SplitJoin(tokens[1..], separator);
      assert Join(tokens, separator) == tokens[0] + ([separator] + rest);
      SplitFromToken(tokens[0], [separator] + rest, "");
      assert "" + tokens[0] == tokens[0];
      assert ([separator] + rest)[1..] == rest;
    }
  }

  predicate AllSeparators(s: string) {
    forall i :: 0 <= i < |s| ==> IsIdSeparator(s[i])
  }

  /** Each token followed by its run of separators. */
  function Interleave(tokens: seq<string>, gaps: seq<string>): string
    requires |gaps| == |tokens|
  {
    if |tokens| == 0 then "" else tokens[0] + gaps[0] + Interleave(tokens[1..], gaps[1..])
  }

  /**
   * The separators of a typed list of `n` tokens: a leading run and a run
   * after each token, all made of separators, and every run between two
   * tokens non-empty. The leading and trailing runs may be empty.
   */
  predicate SeparatorGaps(lead: string, gaps: seq<string>, n: nat) {
    && |gaps| == n
    && AllSeparators(lead)
    && (forall i :: 0 <= i < n ==> AllSeparators(gaps[i]))
    && (forall i :: 0 <= i < n - 1 ==> |gaps[i]| > 0)
  }

  /** A run of separators before a token is skipped. */
  lemma {:induction false} SkipSeparators(run: string, rest: string)
    requires AllSeparators(run)
    ensures SplitFrom(run + rest, "") == SplitFrom(rest, "")
    decreases |run|
  {
    if |run| > 0 {
      assert (run + rest)[1..] == run[1..] + rest;
      SkipSeparators(run[1..], rest);
    } else {
      assert run + rest == rest;
    }
  }

  /** A token ends at the first separator after it, or at the end of the text. */
  lemma SplitAfterToken(token: string, gap: string, rest: string)
    requires |token| > 0 && NoSeparator(token) && AllSeparators(gap)
    requires |gap| > 0 || rest == ""
    ensures SplitFrom(token + gap + rest, "") == [token] + SplitFrom(rest, "")
  {
    var tail := gap + rest;
    assert token + gap + rest == token + tail;
    SplitFromToken(token, tail, "");
    assert "" + token == token;
    if |gap| == 0 {
      assert tail == "";
    } else {
      SplitAtGap(token, gap, rest);
    }
  }

  /** A non-empty run of separators closes the current token. */
  lemma SplitAtGap(token: string, gap: string, rest: string)
    requires |token| > 0 && NoSeparator(token) && |gap| > 0 && AllSeparators(gap)
    ensures SplitFrom(gap + rest, token) == [token] + SplitFrom(rest, "")
  {
    var tail := gap + rest;
    assert tail[0] == gap[0];
    assert tail[1..] == gap[1..] + rest;
    SkipSeparators(gap[1..], rest);
  }

  lemma {:induction false} SplitInterleave(tokens: seq<string>, gaps: seq<string>)
    requires SeparatorGaps("", gaps, |tokens|)
    requires forall i :: 0 <= i < |tokens| ==> |tokens[i]| > 0 && NoSeparator(tokens[i])
    ensures SplitFrom(Interleave(tokens, gaps), "") == tokens
    decreases |tokens|
  {
    if |tokens| > 0 {
      var rest := Interleave(tokens[1..], gaps[1..]);
      assert SeparatorGaps("", gaps[1..], |tokens| - 1);
      SplitInterleave(tokens[1..], gaps[1..]);
      SplitAfterToken(tokens[0], gaps[0], rest);
      assert [tokens[0]] + tokens[1..] == tokens;
    }
  }

  /**
   * The tokens are exactly the maximal separator-free runs: however the
   * separators are laid out around and between non-empty tokens (leading,
   * trailing, repeated, mixed), splitting returns those tokens.
   */
  lemma SplitLayout(lead: string, tokens: seq<string>, gaps: seq<string>)
    requires SeparatorGaps(lead, gaps, |tokens|)
    requires forall i :: 0 <= i < |tokens| ==> |tokens[i]| > 0 && NoSeparator(tokens[i])
    ensures SplitIds(lead + Interleave(tokens, gaps)) == tokens
  {
    SkipSeparators(lead, Interleave(tokens, gaps));
    SplitInterleave(tokens, gaps);
  }

  /**
   * The whitelist as `GetCustomWhiteListIds` computes it: empty for a null
   * or blank string; otherwise every token `int.TryParse` accepts, with
   * unparsable tokens skipped.
   */
  function ParseIds(s: NullableString): (ids: set<int>)
    ensures IsNullOrWhiteSpace(s) ==> ids == {}
    ensures forall id :: id in ids ==> InInt32(id)
  {
    if IsNullOrWhiteSpace(s) then {}
    else
      var tokens := SplitIds(s.value);
      set i | 0 <= i < |tokens| && ParseInt32(tokens[i]).Some? :: ParseInt32(tokens[i]).value
  }

  function IdTokens(ids: seq<int>): (tokens: seq<string>)
    ensures |tokens| == |ids|
    ensures forall i :: 0 <= i < |ids| ==> tokens[i] == IntToString(ids[i])
  {
    if |ids| == 0 then [] else [IntToString(ids[0])] + IdTokens(ids[1..])
  }

  lemma IntToStringNoSeparator(n: int)
    ensures NoSeparator(IntToString(n))
  {
    var s := IntToString(n);
    if n < 0 {
      forall i | 0 <= i < |s| ensures !IsIdSeparator(s[i]) {
        if i > 0 {
          assert s[i] == s[1..][i - 1];
        }
      }
    }
  }

  /**
   * Whatever 32-bit ids a user types, with any separators around and
   * between them, the whitelist holds exactly those ids.
   */
  lemma ParseIdsText(ids: seq<int>, lead: string, gaps: seq<string>)
    requires |ids| > 0
    requires forall i :: 0 <= i < |ids| ==> InInt32(ids[i])
    requires SeparatorGaps(lead, gaps, |ids|)
    ensures ParseIds(Some(lead + Interleave(IdTokens(ids), gaps))) == set i | 0 <= i < |ids| :: ids[i]
  {
    var tokens := IdTokens(ids);
    forall i | 0 <= i < |tokens| ensures |tokens[i]| > 0 && NoSeparator(tokens[i]) {
      IntToStringNoSeparator(ids[i]);
    }
    SplitLayout(lead, tokens, gaps);
    var text := lead + Interleave(tokens, gaps);
    assert !IsNullOrWhiteSpace(Some(text)) by {
      assert text[|lead|] == tokens[0][0];
      assert !IsWhiteSpace(tokens[0][0]) by {
        var s := IntToString(ids[0]);
        if ids[0] >= 0 {
          assert IsDigit(s[0]);
        }
      }
    }
    forall i | 0 <= i < |ids| ensures ParseInt32(tokens[i]) == Some(ids[i]) {
      IntToStringRoundTrip(ids[i]);
    }
  }

  /** The usual typing, a comma and a space between ids, with stray separators at the ends. */
  lemma ParseIdsTypedList()
    ensures ParseIds(Some(" 1001, 1002;")) == {1001, 1002}
  {
    var ids := [1001, 1002];
    assert SeparatorGaps(" ", [", ", ";"], 2);
    ParseIdsText(ids, " ", [", ", ";"]);
    TypedListText();
    assert (set i | 0 <= i < |ids| :: ids[i]) == {1001, 1002} by {
      assert ids[0] == 1001 && ids[1] == 1002;
    }
  }

  lemma TypedListText()
    ensures " " + Interleave(IdTokens([1001, 1002]), [", ", ";"]) == " 1001, 1002;"
  {
    var tokens := IdTokens([1001, 1002]);
    assert tokens == ["1001", "1002"] by {
      TypedIdsDigits();
    }
    assert Interleave(tokens[1..], [";"]) == "1002;";
  }

  lemma TypedIdsDigits()
    ensures NatToString(1001) == "1001" && NatToString(1002) == "1002"
  {
    assert NatToString(1) == "1";
    assert NatToString(10) == "10";
    assert NatToString(100) == "100";
  }

  /**
   * The blank-string shortcut changes nothing: a blank string that reached
   * the tokenizer would yield no id either.
   */
  lemma {:induction false} BlankTokensParseNothing(s: string)
    requires forall i :: 0 <= i < |s| ==> IsWhiteSpace(s[i])
    ensures forall t :: t in SplitIds(s) ==> ParseInt32(t) == None
  {
    forall t | t in SplitIds(s) ensures ParseInt32(t) == None {
      SplitFromKeepsText(s, "");
      TokenOfBlankIsBlank(SplitIds(s), s, t);
      NoDigitNoParse(t);
    }
  }

  lemma TokenOfBlankIsBlank(tokens: seq<string>, s: string, t: string)
    requires forall i :: 0 <= i < |s| ==> IsWhiteSpace(s[i])
    requires Flatten(tokens) == "" + DropSeparators(s)
    requires t in tokens
    ensures forall i :: 0 <= i < |t| ==> IsWhiteSpace(t[i])
  {
    DropSeparatorsKeepsClass(s);
    var k :| 0 <= k < |tokens| && tokens[k] == t;
    FlattenContains(tokens, k);
  }

  lemma {:induction false} DropSeparatorsKeepsClass(s: string)
    requires forall i :: 0 <= i < |s| ==> IsWhiteSpace(s[i])
    ensures forall i :: 0 <= i < |DropSeparators(s)| ==> IsWhiteSpace(DropSeparators(s)[i])
    decreases |s|
  {
    if |s| > 0 {
      DropSeparatorsKeepsClass(s[1..]);
    }
  }

  /** Every character of a token occurs in the flattened text. */
  lemma {:induction false} FlattenContains(tokens: seq<string>, k: int)
    requires 0 <= k < |tokens|
    ensures forall i :: 0 <= i < |tokens[k]| ==> tokens[k][i] in Flatten(tokens)
    decreases |tokens|
  {
    if k > 0 {
      FlattenContains(tokens[1..], k - 1);
    }
  }

  /** `ParseIds` without the blank-string shortcut: tokenize and keep what parses. */
  function TokenIds(s: string): set<int> {
    var tokens := SplitIds(s);
    set i | 0 <= i < |tokens| && ParseInt32(tokens[i]).Some? :: ParseInt32(tokens[i]).value
  }

  /** The blank-string shortcut of `GetCustomWhiteListIds` is only a shortcut. */
  lemma ParseIdsIsTokenIds(s: string)
    ensures ParseIds(Some(s)) == TokenIds(s)
  {
    if IsNullOrWhiteSpace(Some(s)) {
      BlankTokensParseNothing(s);
      var tokens := SplitIds(s);
      forall i | 0 <= i < |tokens| ensures ParseInt32(tokens[i]).None? {
        assert tokens[i] in tokens;
      }
    }
  }

  // ---------------------------------------------------------------------
  // Settings operations
  // ---------------------------------------------------------------------

  /** A setter's outcome: the new state and whether `OnConfigChanged` fired. */
  datatype Update = Update(config: Config, changed: bool)

  /**
   * The multiplier setter: takes the value and raises the change event only
   * when it differs from the current one by more than the tolerance.
   */
  function SetBuffDurationMultiplier(c: Config, value: real): (u: Update)
    ensures u.changed <==> Abs(c.buffDurationMultiplier - value) > MultiplierTolerance
    ensures u.changed ==> u.config == c.(buffDurationMultiplier := value)
    ensures !u.changed ==> u.config == c
    ensures Abs(u.config.buffDurationMultiplier - value) <= MultiplierTolerance
  {
    if Abs(c.buffDurationMultiplier - value) > MultiplierTolerance then
      Update(c.(buffDurationMultiplier := value), true)
    else
      Update(c, false)
  }

  /** Setting the same multiplier again neither changes the state nor fires the event. */
  lemma SetBuffDurationMultiplierIdempotent(c: Config, value: real)
    ensures var once := SetBuffDurationMultiplier(c, value).config;
            SetBuffDurationMultiplier(once, value) == Update(once, false)
  {
  }

  /** The stacking setter: fires the change event exactly when the value flips. */
  function SetAllowBuffStack(c: Config, value: bool): (u: Update)
    ensures u.config == c.(allowBuffStack := value)
    ensures u.changed <==> c.allowBuffStack != value
  {
    if c.allowBuffStack != value then Update(c.(allowBuffStack := value), true)
    else Update(c, false)
  }

  lemma SetAllowBuffStackIdempotent(c: Config, value: bool)
    ensures var once := SetAllowBuffStack(c, value).config;
            SetAllowBuffStack(once, value) == Update(once, false)
  {
  }

  /** What the settings store returned for each key; `None` when nothing is saved. */
  datatype SavedSettings = SavedSettings(
    multiplier: Option<real>,
    allowStack: Option<bool>,
    customIds: Option<NullableString>)

  /**
   * `Load`: a saved multiplier is taken only inside [1, 20]; a saved
   * stacking flag is taken as is; a saved id string replaces the current one
   * and drops the cache. No change event fires.
   */
  function Load(c: Config, saved: SavedSettings): (r: Config)
    ensures saved.multiplier.Some? && MinSavedMultiplier <= saved.multiplier.value <= MaxSavedMultiplier
            ==> r.buffDurationMultiplier == saved.multiplier.value
    ensures !(saved.multiplier.Some? && MinSavedMultiplier <= saved.multiplier.value <= MaxSavedMultiplier)
            ==> r.buffDurationMultiplier == c.buffDurationMultiplier
    ensures r.allowBuffStack == saved.allowStack.GetOr(c.allowBuffStack)
    ensures saved.customIds.Some? ==> r.customExtendedBuffIds == saved.customIds.value && r.cachedCustomIds.None?
    ensures saved.customIds.None? ==> r.customExtendedBuffIds == c.customExtendedBuffIds && r.cachedCustomIds == c.cachedCustomIds
  {
    var m := match saved.multiplier
      case Some(v) => if MinSavedMultiplier <= v && v <= MaxSavedMultiplier then v else c.buffDurationMultiplier
      case None => c.buffDurationMultiplier;
    var s := match saved.allowStack
      case Some(b) => b
      case None => c.allowBuffStack;
    match saved.customIds
    case Some(ids) => Config(m, s, ids, None)
    case None => Config(m, s, c.customExtendedBuffIds, c.cachedCustomIds)
  }

  /** A multiplier in the slider's range stays in it whatever was saved. */
  lemma LoadKeepsMultiplierRange(c: Config, saved: SavedSettings)
    requires MinSavedMultiplier <= c.buffDurationMultiplier <= MaxSavedMultiplier
    ensures MinSavedMultiplier <= Load(c, saved).buffDurationMultiplier <= MaxSavedMultiplier
  {
  }

  /** Loading the same saved settings twice is the same as loading them once. */
  lemma LoadIdempotent(c: Config, saved: SavedSettings)
    ensures Load(Load(c, saved), saved) == Load(c, saved)
  {
  }

  /** The cache, when present, holds what the current id string parses to. */
  predicate CacheCoherent(c: Config) {
    c.cachedCustomIds.None? || c.cachedCustomIds.value == ParseIds(c.customExtendedBuffIds)
  }

  /** A whitelist read: the possibly newly cached state and the ids it returned. */
  datatype WhiteListRead = WhiteListRead(config: Config, ids: set<int>)

  /**
   * `GetCustomWhiteListIds`: returns the cached set when there is one;
   * otherwise parses the id string and caches the result.
   */
  function GetCustomWhiteListIds(c: Config): (r: WhiteListRead)
    ensures c.cachedCustomIds.Some? ==> r == WhiteListRead(c, c.cachedCustomIds.value)
    ensures c.cachedCustomIds.None? ==> r.ids == ParseIds(c.customExtendedBuffIds)
    ensures r.config == c.(cachedCustomIds := Some(r.ids))
    ensures forall id :: id in r.ids && CacheCoherent(c) ==> InInt32(id)
  {
    match c.cachedCustomIds
    case Some(ids) => WhiteListRead(c, ids)
    case None => WhiteListRead(c.(cachedCustomIds := Some(ParseIds(c.customExtendedBuffIds))), ParseIds(c.customExtendedBuffIds))
  }

  /** On a coherent state the read returns what the id string says and keeps the cache coherent. */
  lemma GetCustomWhiteListIdsCoherent(c: Config)
    requires CacheCoherent(c)
    ensures GetCustomWhiteListIds(c).ids == ParseIds(c.customExtendedBuffIds)
    ensures CacheCoherent(GetCustomWhiteListIds(c).config)
  {
  }

  /** A second read returns the same ids and leaves the state alone. */
  lemma GetCustomWhiteListIdsStable(c: Config)
    ensures var first := GetCustomWhiteListIds(c);
            GetCustomWhiteListIds(first.config) == first
  {
  }

  /** `ClearCache`: the next read parses the id string afresh. */
  function ClearCache(c: Config): (r: Config)
    ensures r.cachedCustomIds.None?
    ensures CacheCoherent(r)
    ensures r.buffDurationMultiplier == c.buffDurationMultiplier && r.allowBuffStack == c.allowBuffStack
    ensures r.customExtendedBuffIds == c.customExtendedBuffIds
    ensures GetCustomWhiteListIds(r).ids == ParseIds(c.customExtendedBuffIds)
  {
    c.(cachedCustomIds := None)
  }

  /** The settings input field's callback: store the new string, then drop the cache. */
  function SetCustomExtendedBuffIds(c: Config, value: NullableString): (r: Config)
    ensures r.customExtendedBuffIds == value
    ensures r.cachedCustomIds.None?
    ensures CacheCoherent(r)
    ensures GetCustomWhiteListIds(r).ids == ParseIds(value)
    ensures r.buffDurationMultiplier == c.buffDurationMultiplier && r.allowBuffStack == c.allowBuffStack
  {
    ClearCache(c.(customExtendedBuffIds := value))
  }

  /** Every operation of this class preserves cache coherence. */
  lemma OperationsKeepCacheCoherent(c: Config, m: real, b: bool, saved: SavedSettings)
    requires CacheCoherent(c)
    ensures CacheCoherent(SetBuffDurationMultiplier(c, m).config)
    ensures CacheCoherent(SetAllowBuffStack(c, b).config)
    ensures CacheCoherent(Load(c, saved))
    ensures CacheCoherent(GetCustomWhiteListIds(c).config)
  {
  }

  lemma InitialConfigCoherent()
    ensures CacheCoherent(InitialConfig)
    ensures GetCustomWhiteListIds(InitialConfig).ids == {}
  {
  }

  /**
   * The id string is a public field: assigning it without `ClearCache`
   * after a read leaves the stale set in force.
   */
  lemma RawAssignmentLeavesStaleCache()
    ensures var read := GetCustomWhiteListIds(InitialConfig).config;
            var edited := read.(customExtendedBuffIds := Some("1001"));
            GetCustomWhiteListIds(edited).ids == {}
            && ParseIds(edited.customExtendedBuffIds) == {1001}
  {
    ParseIdsText([1001], "", [""]);
    assert "" + Interleave(IdTokens([1001]), [""]) == "1001";
  }
}

=== FILE: numerals.dfy ===
/**
 * Decimal text of 32-bit integers as the .NET runtime writes and reads it:
 * `int.ToString()` and `int.TryParse(s, out n)` with the default
 * `NumberStyles.Integer` and an invariant-culture sign.
 */
module Numerals {
  import opened Wrappers

  const Int32Min: int := -0x8000_0000
  const Int32Max: int := 0x7FFF_FFFF

  predicate InInt32(n: int) {
    Int32Min <= n <= Int32Max
  }

  predicate IsDigit(c: char) {
    '0' <= c <= '9'
  }

  predicate AllDigits(s: string) {
    forall i :: 0 <= i < |s| ==> IsDigit(s[i])
  }

  /** The white space `NumberStyles.AllowLeadingWhite/AllowTrailingWhite` skip: U+0009..U+000D and U+0020. */
  predicate IsNumberWhite(c: char) {
    c == ' ' || '\t' <= c <= '\r'
  }

  function DigitChar(d: nat): (c: char)
    requires d < 10
    ensures IsDigit(c)
  {
    ['0', '1', '2', '3', '4', '5', '6', '7', '8', '9'][d]
  }

  function DigitValue(c: char): (d: nat)
    requires IsDigit(c)
    ensures d < 10
  {
    (c as int - '0' as int) as nat
  }

  lemma DigitRoundTrip(d: nat)
    requires d < 10
    ensures DigitValue(DigitChar(d)) == d
  {
  }

  /** The value of a run of decimal digits, most significant first. */
  function DigitsValue(s: string): nat
    requires AllDigits(s)
  {
    if |s| == 0 then 0 else DigitsValue(s[..|s| - 1]) * 10 + DigitValue(s[|s| - 1])
  }

  /** Shortest decimal text of a natural number (no leading zeros). */
  function NatToString(n: nat): (s: string)
    ensures |s| > 0 && AllDigits(s)
    ensures n >= 10 ==> s[0] != '0'
  {
    if n < 10 then [DigitChar(n)] else NatToString(n / 10) + [DigitChar(n % 10)]
  }

  /** `int.ToString()`: a leading '-' for negative values. */
  function IntToString(n: int): (s: string)
    ensures |s| > 0
    ensures n >= 0 ==> AllDigits(s)
    ensures n < 0 ==> s[0] == '-' && AllDigits(s[1..]) && |s| > 1
  {
    if n < 0 then "-" + NatToString(-n) else NatToString(n)
  }

  lemma {:induction false} NatToStringValue(n: nat)
    ensures DigitsValue(NatToString(n)) == n
  {
    var s := NatToString(n);
    if n < 10 {
      DigitRoundTrip(n);
    } else {
      NatToStringValue(n / 10);
      assert s[..|s| - 1] == NatToString(n / 10);
      DigitRoundTrip(n % 10);
    }
  }

  /** Strips the characters `NumberStyles.Integer` allows around the number. */
  function TrimNumberWhite(s: string): (t: string)
    ensures |t| <= |s|
    ensures |t| > 0 ==> !IsNumberWhite(t[0]) && !IsNumberWhite(t[|t| - 1])
  {
    TrimEnd(TrimStart(s))
  }

  function TrimStart(s: string): (t: string)
    ensures |t| <= |s| && t == s[|s| - |t|..]
    ensures |t| > 0 ==> !IsNumberWhite(t[0])
  {
    if |s| > 0 && IsNumberWhite(s[0]) then TrimStart(s[1..]) else s
  }

  function TrimEnd(s: string): (t: string)
    ensures |t| <= |s| && t == s[..|t|]
    ensures |t| > 0 ==> !IsNumberWhite(t[|t| - 1])
  {
    if |s| > 0 && IsNumberWhite(s[|s| - 1]) then TrimEnd(s[..|s| - 1]) else s
  }

  /** One or more decimal digits and nothing else. */
  function ParseUnsigned(digits: string): (r: Option<nat>)
    ensures r.Some? <==> |digits| > 0 && AllDigits(digits)
  {
    if |digits| > 0 && AllDigits(digits) then Some(DigitsValue(digits)) else None
  }

  /** A sign followed by digits, already stripped of surrounding white space. */
  function ParseSigned(t: string): (r: Option<int>)
    ensures r.Some? ==> InInt32(r.value)
  {
    if |t| == 0 then None
    else
      var magnitude := ParseUnsigned(if t[0] == '-' || t[0] == '+' then t[1..] else t);
      if magnitude.None? then None
      else
        var v := if t[0] == '-' then -(magnitude.value as int) else magnitude.value;
        if InInt32(v) then Some(v) else None
  }

  /**
   * `int.TryParse`: optional surrounding white space, an optional sign, one
   * or more decimal digits, and a value that fits in 32 bits; anything else
   * is a failed parse (None) rather than an error.
   */
  function ParseInt32(s: string): (r: Option<int>)
    ensures r.Some? ==> InInt32(r.value)
  {
    ParseSigned(TrimNumberWhite(s))
  }

  /** An optional '+' or '-' followed by one or more decimal digits, and nothing else. */
  predicate SignedNumeral(t: string) {
    && |t| > 0
    && (if t[0] == '-' || t[0] == '+' then |t| > 1 && AllDigits(t[1..]) else AllDigits(t))
  }

  /** The integer a signed numeral stands for. */
  function NumeralValue(t: string): int
    requires SignedNumeral(t)
  {
    if t[0] == '-' then -(DigitsValue(t[1..]) as int)
    else if t[0] == '+' then DigitsValue(t[1..])
    else DigitsValue(t)
  }

  /**
   * `int.TryParse` succeeds exactly when the text, trimmed of number white
   * space, is a signed numeral whose value fits in 32 bits, and then yields
   * that value.
   */
  lemma ParseInt32Exactly(s: string)
    ensures var t := TrimNumberWhite(s);
      && (ParseInt32(s).Some? <==> SignedNumeral(t) && InInt32(NumeralValue(t)))
      && (ParseInt32(s).Some? ==> ParseInt32(s).value == NumeralValue(t))
  {
    var t := TrimNumberWhite(s);
    if |t| > 0 && (t[0] == '-' || t[0] == '+') {
      assert ParseUnsigned(t[1..]).Some? <==> |t| > 1 && AllDigits(t[1..]);
    }
  }

  /**
   * A character inside the trimmed text that is not a digit, other than a
   * leading sign, makes the parse fail: "12a", "1.5", "1e3", "1-2", "1 2".
   */
  lemma StrayCharNoParse(s: string, i: int)
    requires var t := TrimNumberWhite(s);
      0 <= i < |t| && !IsDigit(t[i]) && (i > 0 || (t[i] != '-' && t[i] != '+'))
    ensures ParseInt32(s) == None
  {
    ParseInt32Exactly(s);
  }

  /** A sign with no digits does not parse. */
  lemma SignAloneNoParse()
    ensures ParseInt32("+") == None && ParseInt32("-") == None
  {
    SignOnlyNoParse("+");
    SignOnlyNoParse("-");
  }

  lemma SignOnlyNoParse(s: string)
    requires |s| == 1 && (s[0] == '+' || s[0] == '-')
    ensures ParseInt32(s) == None
  {
    TrimUnpadded(s);
    ParseInt32Exactly(s);
  }

  /** Digits mixed with a letter, a decimal point, an exponent or an inner sign do not parse. */
  lemma MixedTextsNoParse()
    ensures ParseInt32("12a") == None && ParseInt32("1.5") == None
    ensures ParseInt32("1e3") == None && ParseInt32("1-2") == None
  {
    MixedTextNoParse("12a", 2);
    MixedTextNoParse("1.5", 1);
    MixedTextNoParse("1e3", 1);
    MixedTextNoParse("1-2", 1);
  }

  lemma MixedTextNoParse(s: string, i: int)
    requires |s| > 0 && IsDigit(s[0]) && !IsNumberWhite(s[|s| - 1])
    requires 0 < i < |s| && !IsDigit(s[i])
    ensures ParseInt32(s) == None
  {
    TrimUnpadded(s);
    StrayCharNoParse(s, i);
  }

  /** Text that neither starts nor ends with number white space is left alone by the trim. */
  lemma TrimUnpadded(s: string)
    requires |s| > 0 && !IsNumberWhite(s[0]) && !IsNumberWhite(s[|s| - 1])
    ensures TrimNumberWhite(s) == s
  {
    assert TrimStart(s) == s;
  }

  /** A sign-free run of digits parses to its value when that fits in 32 bits. */
  lemma ParseDigits(s: string)
    requires |s| > 0 && AllDigits(s) && InInt32(DigitsValue(s))
    ensures ParseInt32(s) == Some(DigitsValue(s))
  {
    assert IsDigit(s[0]) && IsDigit(s[|s| - 1]);
    TrimUnpadded(s);
  }

  /** A '-' followed by digits parses to the negated value when that fits in 32 bits. */
  lemma ParseNegatedDigits(s: string, magnitude: nat)
    requires ParseUnsigned(s) == Some(magnitude) && InInt32(-(magnitude as int))
    ensures ParseInt32("-" + s) == Some(-(magnitude as int))
  {
    var t := "-" + s;
    assert t[1..] == s;
    assert IsDigit(t[|t| - 1]);
    TrimUnpadded(t);
  }

  /** What `int.ToString` writes, `int.TryParse` reads back. */
  lemma IntToStringRoundTrip(n: int)
    requires InInt32(n)
    ensures ParseInt32(IntToString(n)) == Some(n)
  {
    if n < 0 {
      NatToStringValue(-n);
      ParseNegatedDigits(NatToString(-n), -n);
    } else {
      NatToStringValue(n);
      ParseDigits(NatToString(n));
    }
  }

  /** Text with no digit in it never parses. */
  lemma NoDigitNoParse(s: string)
    requires forall i :: 0 <= i < |s| ==> !IsDigit(s[i]) && s[i] != '-' && s[i] != '+'
    ensures ParseInt32(s) == None
  {
    var t := TrimNumberWhite(s);
    if |t| > 0 {
      assert t[0] in s;
    }
  }
}

=== FILE: wrappers.dfy ===
/** Optional values: `None` stands for a C# null reference or an absent key. */
module Wrappers {

  datatype Option<+T> = None | Some(value: T) {

    /** The wrapped value, or `default` when there is none. */
    function GetOr(default: T): T {
      match this
      case Some(v) => v
      case None => default
    }
  }
}
